=== FILE: README.md ===
# zipcelx worksheet encoder, modelled in Dafny

`zipcelx` turns a configuration into a SpreadsheetML workbook (ECMA-376 Part 1). The
configuration holds a file name and a sheet, which is an array of rows of cell objects
`{ value, type, style }`. The function checks the configuration. It then writes six parts into a
zip archive:

- the workbook;
- the workbook's relationships;
- the package relationships;
- the content types;
- one worksheet, built from the rows;
- a style part.

Finally it offers the archive for download as `<filename>.xlsx`.

This project models that encoder as it is written in `lib/module.js`, with the departures listed
under Left out. The main one is that the worksheet is the rows' markup placed literally into its
template. The code's `replace` at line 208 also expands `$` patterns in that markup; this is
modelled separately and reported under Findings.

- **Columns and references:** column letters in bijective base 26 (`A`…`Z`, `AA`…) and cell
  references such as `B7` (module `Coordinates`).
- **Cell markup** (module `CellMarkup`):
  - inline-string cells whose value is HTML-escaped;
  - number cells;
  - the optional `s` attribute;
  - the in-place correction that `formatCell` makes, which sets any unknown `type` to
    `"string"`. The cell objects are a class whose `ctype` field the methods update.
- **Rows and the worksheet** (module `Worksheet`):
  - `formatRow` and `generatorRows` are loops over the cell objects, and `generateXMLWorksheet`
    places their result into the worksheet template;
  - each is proved against functions of the cells' states from before the call.
- **Validation** (module `Validation`): the four checks, in their order, with their messages.
- **Background fills** (module `Fills`):
  - the loop that pulls a colour out of every style naming `bgColor=`;
  - the loop that builds the `fills` element.
- **The entry point** (module `Package`):
  - `zipcelx` itself, over an `Archive` class whose `file` method appends a part;
  - the throw on a rejected configuration.
- **JavaScript primitives used by the encoder:**
  - `indexOf`, `substring` and `replace` with its `$` patterns (module `JsString`);
  - the escaping of `lodash.escape` (module `HtmlEscape`);
  - decimal printing of numbers (module `Decimal`).

Every piece of markup has a decoder as its partner:

- `DecodeCell`, `DecodeRow` and `DecodeWorksheet` read the markup back.
- `ParseCellReference` reads a cell reference back.
- `ColumnIndex` reads column letters back.
- `Unescape` reads escaped text back.
- `FillsCount` and `FillIndex` read the `fills` element back.

The round-trip lemmas show that the markup reads back as the reference, style text, kind and
value text of every cell whose style holds no `"` and whose number-path value holds no `<`. They
do not recover whether a value was text or a number, nor the name of an unknown type.
`CellMarkup.UnescapedCellMisread` shows the converse: any other cell does not read back as
itself.

Two points where the code may surprise a reader:

- **The `s` attribute** carries the style's own text. It is not an index into a style
  registry: the registry code in `formatCell` is commented out.
- **The `s` attribute and number values are not escaped.** A style text holding `"`, such as
  the `bgColor="FF0000"` form that the fills loop parses, ends the `s` attribute early and
  gives malformed XML. A number-path value holding `<` breaks the `v` element the same way.
  Only inline-string values go through `escape` (`CellMarkup.UnescapedCellMisread`).
- **The `fills` fragment** is computed but never reaches the style part. `zipcelx` collects no
  styles (`styles` stays `[]`), and the inner style template has no `{fillsPlaceholder}` for the
  fragment to replace.

## Model

| member | source | states |
|---|---|---|
| Coordinates.Letter | lib/module.js:50 | digit `d` < 26 becomes an upper-case letter whose value reads back as `d` |
| Coordinates.ColumnLetter | lib/module.js:44-55 | the column name of any non-negative index is a non-empty run of letters A–Z, and a single letter for an index below 26 |
| Coordinates.ColumnRoundTrip | lib/module.js:44-55 | reading the letters back as a bijective base-26 number gives the index again |
| Coordinates.ColumnLetterOnto | lib/module.js:44-55 | every non-empty run of letters is the name of exactly the column it denotes |
| Coordinates.ColumnLetterInjective | lib/module.js:44-55 | two columns with the same name are the same column |
| Coordinates.ColumnLetterExamples | lib/module.js:44-55 | 0→A, 25→Z, 26→AA, 51→AZ, 52→BA, 701→ZZ, 702→AAA |
| Coordinates.CellReference | lib/module.js:57-59 | a reference is letters and digits, at least two characters |
| Coordinates.CellReferenceRoundTrip | lib/module.js:57-59 | the reference parses back to its column index and row number |
| Coordinates.CellReferenceInjective | lib/module.js:57-59 | distinct (column, row) pairs get distinct references |
| Coordinates.CellReferenceExamples | lib/module.js:57-59 | (0, 1) → `A1`, (4, 10) → `E10` |
| Decimal.NatToDecimal | lib/module.js:58 | the printed row number is a non-empty run of digits without a leading zero |
| Decimal.DecimalRoundTrip | lib/module.js:58 | the printed number reads back as itself |
| Decimal.DecimalInjective | lib/module.js:58 | different numbers print differently |
| Decimal.IntToDecimal | lib/module.js:80 | a printed integer value is digits and a minus sign only |
| Decimal.IntRoundTrip | lib/module.js:80 | the printed integer reads back as itself, sign included |
| HtmlEscape.Escape | lib/module.js:68 | escaped text holds no `<`, `>`, `"` or `'`, and text with no special character is unchanged |
| HtmlEscape.EscapeRoundTrip | lib/module.js:68 | unescaping the escaped text gives the text back |
| HtmlEscape.EscapeAppend | lib/module.js:68 | escaping works character by character: it distributes over concatenation |
| HtmlEscape.EscapeKeepsOthers | lib/module.js:68 | a character other than the five special ones is kept as it is, in place |
| JsString.FindFrom | lib/module.js:237-239 | the search returns the first match at or after its start, or -1 when there is none |
| JsString.IndexOf | lib/module.js:237-239 | `indexOf` from a clamped start returns the first match at or after it, or -1 when there is none |
| JsString.Substring | lib/module.js:241 | `substring` clamps both ends to the string and swaps them when they are reversed |
| JsString.Substitute | lib/module.js:208 | a replacement text with no `$` is inserted unchanged |
| JsString.ReplaceFirst | lib/module.js:208 | `replace` with a string pattern leaves a text without the pattern unchanged, and otherwise puts a `$`-free replacement in place of the first occurrence only |
| JsString.ReplaceFirstSplice | lib/module.js:208 | in a template whose placeholder's first character does not occur earlier, `replace` puts the `$`-expanded replacement where the placeholder stood |
| JsString.ReplaceFirstAbsent | lib/module.js:260 | `replace` of a pattern that does not occur leaves the string unchanged |
| CellMarkup.TypeOfName | lib/module.js:86 | the cell type keeps the `type` string it was read from |
| CellMarkup.ValidTypeNames | lib/module.js:7 | a type is recognised exactly when it is `"string"` or `"number"` |
| CellMarkup.NormalType | lib/module.js:86-89 | the corrected type is always recognised, a recognised type is kept, and any other becomes `"string"` |
| CellMarkup.StyleText | lib/module.js:106-107 | the style text a cell passes on: the string form of a truthy style, `''` for a falsy one |
| CellMarkup.StyleAttribute | lib/module.js:64-66 | the `s` attribute with the style text unescaped; it is absent exactly when the style text is empty |
| CellMarkup.StringCellXml | lib/module.js:61-71 | the markup of an inline-string cell: reference, optional `s` attribute, the escaped value inside `<is><t>` |
| CellMarkup.NumberCellXml | lib/module.js:73-83 | the markup of a number cell: reference, optional `s` attribute, the value printed unescaped inside `<v>` |
| CellMarkup.CellXml | lib/module.js:104-108 | the markup `formatCell` returns: a string cell for the type `"string"` after correction, a number cell otherwise |
| CellMarkup.StringCell | lib/module.js:61-71 | `generatorStringCell` builds the markup of `CellMarkup.StringCellXml` |
| CellMarkup.NumberCell | lib/module.js:73-83 | `generatorNumberCell` builds the markup of `CellMarkup.NumberCellXml` |
| CellMarkup.FormatCell | lib/module.js:85-109 | the cell's type is corrected in place, and the markup is that of the cell as it stood before the call |
| CellMarkup.CellXmlNormalType | lib/module.js:104-108 | a cell formats only by its corrected type, and an unknown type formats as a string cell |
| CellMarkup.InlineRoundTrip | lib/module.js:68 | the escaped inline-string body reads back as the original value |
| CellMarkup.StringCellRoundTrip | lib/module.js:61-71 | a string cell's markup reads back as its reference, style text, inline kind and unescaped value |
| CellMarkup.NumberCellRoundTrip | lib/module.js:73-83 | a number cell's markup reads back as its reference, style text, number kind and printed value |
| CellMarkup.CellRoundTrip | lib/module.js:85-109 | the markup of any cell reads back as its reference, its style text, its kind (inline string or number) and its value text, for a style without `"` and a number value without `<`; it does not recover whether the value was text or a number, nor the name of an unknown type |
| CellMarkup.DecodeCell | lib/module.js:61-83 | the decoder of a cell's markup; a style text it reads never holds `"`, and a number value it reads never holds `<` |
| CellMarkup.UnescapedCellMisread | lib/module.js:64-66 | a cell whose style text holds `"`, or a number cell whose value holds `<`, does not read back as itself, because neither is escaped |
| Worksheet.CellParts | lib/module.js:114-116 | a row gives one piece of markup per cell |
| Worksheet.RowParts | lib/module.js:122-124 | a sheet gives one row element per row |
| Worksheet.RowXml | lib/module.js:111-119 | the row element `formatRow` returns: the one-based row number, then the markup of its cells joined in order |
| Worksheet.RowsXml | lib/module.js:121-125 | the markup `generatorRows` returns: the row elements joined in order |
| Worksheet.WorksheetXml | lib/module.js:206-209 | the worksheet part as intended: the rows' markup placed literally between the template's `sheetData` tags |
| Worksheet.FormatRow | lib/module.js:111-119 | the row's markup is that of its cells as they stood before the call, even when a cell object occurs twice; every cell's type is corrected |
| Worksheet.GenerateRows | lib/module.js:121-125 | the rows' markup is that of the sheet as it stood before the call; every cell's type is corrected |
| Worksheet.GenerateWorksheet | lib/module.js:206-209 | the worksheet is the template's text around the rows' markup; every cell's type is corrected |
| Worksheet.RowRoundTrip | lib/module.js:111-119 | a row element reads back as its one-based number and its cells in order, for cells whose style holds no `"` and whose number-path value holds no `<` |
| Worksheet.RowsRoundTrip | lib/module.js:121-125 | the rows' markup reads back as every row, in order, for cells whose style holds no `"` and whose number-path value holds no `<` |
| Worksheet.DocumentRoundTrip | lib/module.js:206-209 | any template text around the rows reads back as the rows, for cells whose style holds no `"` and whose number-path value holds no `<` |
| Worksheet.WorksheetRoundTrip | lib/module.js:206-209 | the worksheet part reads back as every row with its number and, in each row, the reference, style text, kind and value text of every cell, in order, when every style holds no `"` and every number-path value holds no `<`; it does not recover whether a value was text or a number, nor the name of an unknown type |
| Worksheet.ReferencesDistinct | lib/module.js:113-115 | every cell of a sheet gets its own reference |
| Worksheet.RowObjectXmlIsRowXml | lib/module.js:114-116 | formatting the cell objects gives the markup of their current states |
| Worksheet.RowFormatsAsBefore | lib/module.js:85-89 | cells whose type was already corrected format as they did before |
| Worksheet.EmptySheet | lib/module.js:206-209 | a sheet without rows leaves `sheetData` empty |
| Worksheet.TwoByTwoRows | lib/module.js:111-125 | a 2×2 sheet of string cells gives rows 1 and 2 with inline-string cells A1, B1, A2, B2 |
| Worksheet.WorksheetAsWritten | lib/module.js:206-209 | the worksheet as `generateXMLWorksheet`'s `replace` builds it: the rows' markup, with its `$` patterns expanded, in place of the template's placeholder |
| Worksheet.AsWrittenWithoutDollar | lib/module.js:208 | with no `$` in the rows' markup, `replace` gives the intended worksheet |
| Worksheet.AsWrittenHalvesDollar | lib/module.js:208 | a `$$` in the rows' markup comes out of `replace` as a single `$`, which is not the intended worksheet |
| Worksheet.DollarCounterexample | lib/module.js:208 | a one-cell sheet whose string value is `$$` gets a worksheet holding a single `$` |
| Validation.Truthy | lib/module.js:21 | JavaScript truthiness as `!config.filename` tests it: `undefined`, `null`, `false`, `0`, `NaN` and `''` are falsy, everything else truthy |
| Validation.WellFormed | lib/module.js:20-42 | what `validator` accepts: a non-empty string file name and sheet data that is an array of arrays |
| Validation.ChildValidator | lib/module.js:16-18 | true exactly when every item is an array; an empty array passes |
| Validation.Validate | lib/module.js:20-42 | accepts exactly the well-formed configurations; each of the four diagnostics is reported exactly when its check is the first to fail |
| Validation.FilenameCheckedFirst | lib/module.js:21-29 | a missing or mistyped file name is reported whatever the sheet data |
| Validation.Message | lib/module.js:9-12 | the text of each diagnostic, spelled as the library spells it |
| Validation.MessagesDistinct | lib/module.js:9-12 | two diagnostics have the same text only when they are the same diagnostic |
| Validation.ValidationExamples | lib/module.js:20-42 | an empty name is missing, a number name is mistyped, a non-array sheet and a non-array row are rejected, an empty sheet passes |
| Fills.HasBgColor | lib/module.js:237 | a style names a background colour when `bgColor=` occurs anywhere in it |
| Fills.CountBg | lib/module.js:236 | the number of styles naming `bgColor=`, at most the number of styles |
| Fills.BgStyles | lib/module.js:236 | the styles naming `bgColor=`, in order: as many as `Fills.CountBg` says, each naming `bgColor=` |
| Fills.ExtractFill | lib/module.js:237-241 | the text between the first quote after `bgColor=` and the next quote, as `substring` clamps it; never longer than the style |
| Fills.BackgroundFills | lib/module.js:234-244 | exactly one colour per style naming `bgColor=` |
| Fills.FillsFromBgStyles | lib/module.js:234-244 | the `j`-th colour is extracted from the `j`-th style naming `bgColor=` |
| Fills.CountBgZero | lib/module.js:234-244 | no colour is collected exactly when no style names `bgColor=` |
| Fills.ExtractBackgroundFills | lib/module.js:234-244 | the loop collects the colours of `Fills.BackgroundFills`, in order |
| Fills.QuotedFill | lib/module.js:237-242 | a style `…bgColor="v"…` yields exactly `v` |
| Fills.UnquotedFill | lib/module.js:238-241 | a style without any quote yields the empty colour |
| Fills.FillsXml | lib/module.js:246-256 | the `fills` element: a `count` of the colours plus two, the two default fills, one solid fill per colour with its index |
| Fills.FillElements | lib/module.js:250-254 | one solid fill per background colour |
| Fills.FillsFragment | lib/module.js:246-256 | the loop builds the `fills` element of `Fills.FillsXml` |
| Fills.NumberAfterRoundTrip | lib/module.js:246-251 | a decimal number closed by a quote reads back as itself after the attribute's opening text |
| Fills.StylesFillsCount | lib/module.js:234-246 | the `count` attribute is two more than the number of styles naming `bgColor=` |
| Fills.FillsCountRoundTrip | lib/module.js:246 | the `count` attribute reads back as the number of colours plus two |
| Fills.FillsIndexed | lib/module.js:251 | the `i`-th solid fill reads back as `indexed="i"` |
| Fills.FillsIgnoreColours | lib/module.js:250-254 | only the number of colours reaches the element, not the colours |
| Fills.NoStylesTwoFills | lib/module.js:223-256 | with no styles, the element holds just the two default fills |
| Package.StyleSplice | lib/module.js:260-263 | with the inner text holding no `{fillsPlaceholder}` and no `$`, the style part is the template with the inner text in place of its placeholder, whatever the fills |
| Package.StyleData | lib/module.js:260 | an inner template without `{fillsPlaceholder}` is left as it is |
| Package.StyleFile | lib/module.js:263 | the style template with the inner text replacing its `{placeholder}`; `Package.StyleSplice` states the result |
| Package.BuildStyleFile | lib/module.js:234-263 | the style part is the two replacements applied to the `fills` element of the styles' background colours |
| Package.NoStylesFillsCount | lib/module.js:223-246 | `zipcelx`'s own fills fragment declares two fills |
| Package.Archive.constructor | lib/module.js:216 | a new archive holds no parts |
| Package.Archive.File | lib/module.js:218-221 | adding a file appends exactly that part and changes nothing else |
| Package.Parts | lib/module.js:215-264 | the six parts for a sheet in given states: the worksheet part is the template's head, the rows' markup and the template's tail |
| Package.ArchiveParts | lib/module.js:218-264 | six parts, the fifth being the worksheet path with the given worksheet text |
| Package.OtherPartsFixed | lib/module.js:218-264 | every part but the worksheet is the same whatever the worksheet text |
| Package.FillArchive | lib/module.js:216-264 | the `file` calls, in the source's order, leave the archive holding `Package.ArchiveParts` of the worksheet text |
| Package.LookupWorksheet | lib/module.js:225-226 | the worksheet path finds the worksheet text in the archive |
| Package.PartPathsDistinct | lib/module.js:218-264 | the six parts have six distinct paths |
| Package.LookupSheet | lib/module.js:225-226 | the worksheet path names the worksheet part |
| Package.SheetPartRoundTrip | lib/module.js:225-226 | the worksheet part reads back as the sheet, and no other part depends on the sheet, for cells whose style holds no `"` and whose number-path value holds no `<` |
| Package.LibrarySheetPart | lib/module.js:148-226 | with the library's worksheet template, the worksheet part is the worksheet of the rows and reads back as them, for cells whose style holds no `"` and whose number-path value holds no `<` |
| Package.SheetPartAsWritten | lib/module.js:206-226 | when the rows' markup holds no `$`, the worksheet part is exactly what `generateXMLWorksheet`'s `replace` produces |
| Package.RowOfCells | lib/module.js:114-115 | a row array's cell objects, in order |
| Package.SheetRows | lib/module.js:122-123 | the sheet data's rows of cell objects, in order |
| Package.BuildParts | lib/module.js:216-264 | the archive ends up holding the six parts, in order, with the worksheet of the cells as they were; every cell's type is corrected |
| Package.Zipcelx | lib/module.js:211-274 | a rejected configuration throws `Validation failed.` and touches nothing; an accepted one yields the package named `<filename>.xlsx` |
| Package.RejectedBeforeCells | lib/module.js:211-213 | a configuration with an empty file name throws `Validation failed.` whatever its rows hold, even items that are not cell objects |

## Left out

- **Downloading:** JSZip's blob generation (`generateAsync`) and FileSaver's `saveAs` are left
  out. `Package.Zipcelx` returns the file name and the parts in the order they are added, rather
  than a promise that saves a zip archive.
- **The zip folder object:** `zip.folder('xl')` is not modelled. Files added through it carry
  the `xl/` prefix in their path.
- **Console output:** `console.error` and `console.warn` are left out. `Validation.Message`
  gives the text of each diagnostic.
- **Static texts:** the static parts and templates reach the package through a `StaticTexts`
  parameter. `Package.Library` holds the library's own texts. Reasoning directly over the long
  literals is beyond what the proofs can afford.
- **Facts about the templates** that are true of the literals but not proved:
  - the worksheet template's `{placeholder}` is its first `{`;
  - the style template's `{placeholder}` is its first `{`;
  - the inner style template holds no `{fillsPlaceholder}` and no `$`.

  `Package.StyleSplice` and `JsString.ReplaceFirstSplice` take these as hypotheses.
- **Template contents:** whether the static parts conform to ECMA-376 is not modelled.
- **Package.BuildParts:** the worksheet is generated before `Package.FillArchive` creates the
  archive, not after the four static parts are added. Generating it only writes cell types and
  adding a part only writes the archive, so the result is the same.
- **Package.BuildParts:** the style part is stated as `StyleFile` of the fills of no styles.
  That is `zipcelx`'s own empty `styles` list. The `styles` argument that `generatorRows`,
  `formatRow` and `formatCell` pass along is never read by live code, so it is not modelled.
- **Worksheet.GenerateWorksheet:** the rows are placed into the template literally. The
  `$`-pattern expansion that `replace` performs at line 208 is modelled separately by
  `Worksheet.WorksheetAsWritten` (see Findings).
- **Package.BuildParts:** its worksheet part is the literal splice of `Worksheet.GenerateWorksheet`.
  When the rows' markup holds `$$`, `$&`, `` $` `` or `$'`, the code's part differs
  (`Worksheet.DollarCounterexample`). When it holds no `$`, the two agree
  (`Package.SheetPartAsWritten`).
- **Package.Zipcelx:** the accepted package's worksheet part is the literal splice, so it departs
  from the code's on the same `$` patterns as `Package.BuildParts`.
- **Package.SheetPartRoundTrip:** reads back the literal-splice worksheet part. The code's part
  reads back as the sheet only when the rows' markup holds no `$` pattern
  (`Package.SheetPartAsWritten` with `Worksheet.WorksheetRoundTrip`).
- **Package.LibrarySheetPart:** the same gap as `Package.SheetPartRoundTrip`, for the library's
  own worksheet template.
- **Package.Zipcelx:** requires every item of every row array of an accepted configuration to
  be a cell object. A rejected configuration may hold anything in its rows: it throws before they
  are looked at (`Package.RejectedBeforeCells`). In an accepted one, `null` and `undefined` items
  make `formatCell` throw on the read of `cell.type`, and other primitives throw on the write of
  `cell.type`. Those throws are not modelled.
- **Row items that are arrays or plain objects** without the cell fields are not modelled. The
  code does not throw on them: it sets their `type` to `'string'` and formats them as string
  cells whose value is missing.
- **Cell values other than text and integers** are not modelled. A missing or `null` value
  gives an empty `<t></t>` in a string cell, because `escape` maps it to `''`, and
  `<v>undefined</v>` or `<v>null</v>` in a number cell. A boolean prints as `true` or `false`.
- **Package.Zipcelx:** assumes `config.sheet` is present. A missing `sheet` makes `validator`
  throw a `TypeError` rather than report a diagnostic.
- **Number values:** they are integers. JavaScript floating-point formatting, `NaN` values and
  `Infinity` values are left out. `NaN` appears only as a falsy file name.
- **Coordinates.ColumnLetter:** defined on non-negative integers only. The `''` returned for a
  non-number index and the behaviour on negative or fractional indices are left out.
- **Cell objects:** a cell's `value` and `style` are read-only. The encoder never writes them.
  A style is its string form; `toString` of an arbitrary object is not modelled.
- **HtmlEscape.Escape:** the five-character mapping of `lodash.escape` is modelled, not its
  internals.
- **Dead code:** commented-out code is not modelled. That includes the style registry, the
  `cellXfs` and `colors` fragments and `defaultStyles`.

## Findings

| source | as written | input that shows it | evidently intended | confidence | as-written member | corrected member |
|---|---|---|---|---|---|---|
| lib/module.js:208 | `templateSheet.replace('{placeholder}', XMLRows)` treats the rows' markup as a replacement pattern, so `$$`, `$&`, `` $` `` and `$'` in a cell's text are expanded; escaping leaves `$` alone | a sheet with one string cell whose value is `$$`: the worksheet holds `$` in that cell | the rows' markup placed literally between the template's `sheetData` tags | not executed | Worksheet.DollarCounterexample | Worksheet.WorksheetRoundTrip |

=== FILE: cells.dfy ===
/**
  The markup of one worksheet cell (`c` element of ECMA-376 Part 1, section 18.3.1.4): an inline
  string cell or a number cell, with its reference and an optional `s` attribute. The `s` attribute
  carries the text of the cell's style as it is, not an index into a style table.
 */
module CellMarkup {
  import opened Wrappers
  import opened JsString
  import opened Decimal
  import opened HtmlEscape
  import opened Coordinates

  /** The `type` property of a cell: the two names the encoder recognises, "string" and "number",
      and any other value, kept with its name. */
  datatype CellType = StringType | NumberType | Unknown(name: string)

  /** The `type` property read from its JavaScript string. */
  function TypeOfName(name: string): (t: CellType)
    ensures TypeName(t) == name
  {
    if name == "string" then StringType
    else if name == "number" then NumberType
    else Unknown(name)
  }

  /** The string a `type` property holds. */
  function TypeName(t: CellType): string {
    match t
    case StringType => "string"
    case NumberType => "number"
    case Unknown(name) => name
  }

  /** A cell value. The source accepts anything `${value}` can print; the model keeps text and
      integral numbers. */
  datatype CellValue = Text(s: string) | Number(n: int)

  /** The value as text, as both `${value}` and `escape(value)` turn it into a string. */
  function ValueText(v: CellValue): string {
    match v
    case Text(s) => s
    case Number(n) => IntToDecimal(n)
  }

  /** The three properties of a cell object at one moment. */
  datatype CellData = CellData(ctype: CellType, value: CellValue, style: Option<string>)

  /** `validTypes.indexOf(type) !== -1`. */
  predicate IsValidType(t: CellType) {
    t.StringType? || t.NumberType?
  }

  /** A type name is recognised exactly when it is one of the two names. */
  lemma ValidTypeNames(name: string)
    ensures IsValidType(TypeOfName(name)) <==> name == "string" || name == "number"
  {
  }

  /** The type a cell has once formatted: an unrecognised type falls back to "string". */
  function NormalType(t: CellType): (r: CellType)
    ensures IsValidType(r)
    ensures IsValidType(t) ==> r == t
    ensures !IsValidType(t) ==> r == StringType
  {
    if IsValidType(t) then t else StringType
  }

  /** `cell.style ? cell.style.toString() : ''`: `None` stands for a falsy style, `Some(t)` for a
      style object whose string form is `t`. */
  function StyleText(style: Option<string>): string {
    match style
    case None => ""
    case Some(t) => t
  }

  const CellOpen: string := "<c r=\""
  const StyleOpen: string := " s=\""
  const InlineOpen: string := " t=\"inlineStr\"><is><t>"
  const InlineClose: string := "</t></is></c>"
  const NumberOpen: string := "><v>"
  const NumberClose: string := "</v></c>"

  /** The `s` attribute, present only for a non-empty (truthy) style text. */
  function StyleAttribute(style: string): (r: string)
    ensures r == "" <==> style == ""
  {
    if style == "" then "" else StyleOpen + style + "\""
  }

  /** The markup `generatorStringCell` builds. */
  function StringCellXml(index: nat, value: CellValue, rowIndex: nat, style: string): string {
    CellOpen + CellReference(index, rowIndex) + "\"" + StyleAttribute(style)
      + (InlineOpen + Escape(ValueText(value)) + InlineClose)
  }

  /** The markup `generatorNumberCell` builds: the value is printed as it is, without escaping. */
  function NumberCellXml(index: nat, value: CellValue, rowIndex: nat, style: string): string {
    CellOpen + CellReference(index, rowIndex) + "\"" + StyleAttribute(style)
      + (NumberOpen + ValueText(value) + NumberClose)
  }

  /** The markup `formatCell` returns for a cell in the state `c` it had before the call. */
  function CellXml(c: CellData, index: nat, rowIndex: nat): string {
    if NormalType(c.ctype) == StringType then StringCellXml(index, c.value, rowIndex, StyleText(c.style))
    else NumberCellXml(index, c.value, rowIndex, StyleText(c.style))
  }

  /** A cell object of the input sheet. The encoder only ever writes its type, which
      `formatCell` corrects in place; its value and style are read-only here. */
  class Cell {
    var ctype: CellType
    const value: CellValue
    const style: Option<string>

    constructor (ctype: CellType, value: CellValue, style: Option<string>)
      ensures Data() == CellData(ctype, value, style)
    {
      this.ctype := ctype;
      this.value := value;
      this.style := style;
    }

    function Data(): CellData
      reads this
    {
      CellData(ctype, value, style)
    }
  }

  method StringCell(index: nat, value: CellValue, rowIndex: nat, style: string) returns (cell: string)
    ensures cell == StringCellXml(index, value, rowIndex, style)
  {
    cell := CellOpen + CellReference(index, rowIndex) + "\"";
    if style != "" {
      cell := cell + (StyleOpen + style + "\"");
    } else {
      assert cell + StyleAttribute(style) == cell;
    }
    cell := cell + (InlineOpen + Escape(ValueText(value)) + InlineClose);
  }

  method NumberCell(index: nat, value: CellValue, rowIndex: nat, style: string) returns (cell: string)
    ensures cell == NumberCellXml(index, value, rowIndex, style)
  {
    cell := CellOpen + CellReference(index, rowIndex) + "\"";
    if style != "" {
      cell := cell + (StyleOpen + style + "\"");
    } else {
      assert cell + StyleAttribute(style) == cell;
    }
    cell := cell + (NumberOpen + ValueText(value) + NumberClose);
  }

  /** Formats one cell. An unrecognised type is first corrected to "string" in the cell itself. */
  method FormatCell(cell: Cell, index: nat, rowIndex: nat) returns (xml: string)
    modifies cell
    ensures cell.ctype == NormalType(old(cell.ctype))
    ensures xml == CellXml(old(cell.Data()), index, rowIndex)
  {
    if !IsValidType(cell.ctype) {
      cell.ctype := StringType;
    }
    var styleText := if cell.style.Some? then cell.style.value else "";
    if cell.ctype == StringType {
      xml := StringCell(index, cell.value, rowIndex, styleText);
    } else {
      xml := NumberCell(index, cell.value, rowIndex, styleText);
    }
  }

  /** Formatting depends on the type only through its corrected form, so a cell whose type was
      already corrected formats as it did before. */
  lemma CellXmlNormalType(c: CellData, index: nat, rowIndex: nat)
    ensures CellXml(c.(ctype := NormalType(c.ctype)), index, rowIndex) == CellXml(c, index, rowIndex)
    ensures !IsValidType(c.ctype) ==>
      CellXml(c, index, rowIndex) == CellXml(c.(ctype := StringType), index, rowIndex)
  {
  }

  // ---------------------------------------------------------------------------------------------
  // Reading the markup back

  datatype CellKind = InlineString | NumberValue

  /** What a `c` element says: its coordinates, its style text, its kind and its value text
      (entities decoded for an inline string). */
  datatype DecodedCell = DecodedCell(colIndex: nat, rowNumber: nat, style: string, kind: CellKind, text: string)

  /** What the markup of a cell in state `c` must say. */
  function CellView(c: CellData, index: nat, rowIndex: nat): DecodedCell {
    DecodedCell(index, rowIndex, StyleText(c.style),
      if NormalType(c.ctype) == StringType then InlineString else NumberValue,
      ValueText(c.value))
  }

  /** Splits `s` at the first `d`: the text before it, and the rest starting with `d`. */
  function SplitAt(s: string, d: char): (r: Option<(string, string)>)
    ensures r.Some? ==> r.value.0 + r.value.1 == s && |r.value.1| > 0 && r.value.1[0] == d && d !in r.value.0
    ensures r.None? ==> d !in s
  {
    if s == [] then None
    else if s[0] == d then Some(([], s))
    else match SplitAt(s[1..], d)
      case None => None
      case Some((a, b)) =>
        AppendAssoc([s[0]], a, b);
        assert [s[0]] + s[1..] == s;
        Some(([s[0]] + a, b))
  }

  lemma {:induction false} SplitAtFirst(a: string, d: char, b: string)
    requires d !in a
    ensures SplitAt(a + [d] + b, d) == Some((a, [d] + b))
  {
    var s := a + [d] + b;
    if a == [] {
      assert s == [d] + b;
    } else {
      assert s[0] == a[0] && s[1..] == a[1..] + [d] + b;
      SplitAtFirst(a[1..], d, b);
      assert [a[0]] + a[1..] == a;
    }
  }

  /** Reads the optional `s` attribute; a style text read back never holds `"`. */
  function DecodeStyle(s: string): (r: Option<(string, string)>)
    ensures r.Some? ==> '"' !in r.value.0
  {
    if StartsWith(s, StyleOpen) then
      match SplitAt(s[|StyleOpen|..], '"')
      case None => None
      case Some((style, rest)) => Some((style, rest[1..]))
    else Some(("", s))
  }

  /** Reads the value of a cell; a number value read back never holds `<`. */
  function DecodeBody(s: string): (r: Option<(CellKind, string, string)>)
    ensures r.Some? && r.value.0 == NumberValue ==> '<' !in r.value.1
  {
    if StartsWith(s, InlineOpen) then
      match SplitAt(s[|InlineOpen|..], '<')
      case None => None
      case Some((text, rest)) =>
        if StartsWith(rest, InlineClose) then Some((InlineString, Unescape(text), rest[|InlineClose|..])) else None
    else if StartsWith(s, NumberOpen) then
      match SplitAt(s[|NumberOpen|..], '<')
      case None => None
      case Some((text, rest)) =>
        if StartsWith(rest, NumberClose) then Some((NumberValue, text, rest[|NumberClose|..])) else None
    else None
  }

  /** Reads one `c` element at the start of `s`; returns what it says and the text after it. */
  function DecodeCell(s: string): (r: Option<(DecodedCell, string)>)
    ensures r.Some? ==> |r.value.1| < |s|
    ensures r.Some? ==> '"' !in r.value.0.style
    ensures r.Some? && r.value.0.kind == NumberValue ==> '<' !in r.value.0.text
  {
    if !StartsWith(s, CellOpen) then None
    else match SplitAt(s[|CellOpen|..], '"')
      case None => None
      case Some((reference, rest)) =>
        match ParseCellReference(reference)
        case None => None
        case Some((col, row)) => DecodeAttributes(col, row, rest[1..])
  }

  /** Reads the rest of a `c` element once its reference has been read. */
  function DecodeAttributes(col: nat, row: nat, s: string): (r: Option<(DecodedCell, string)>)
    ensures r.Some? ==> |r.value.1| < |s|
    ensures r.Some? ==> '"' !in r.value.0.style
    ensures r.Some? && r.value.0.kind == NumberValue ==> '<' !in r.value.0.text
  {
    match DecodeStyle(s)
    case None => None
    case Some((style, afterStyle)) =>
      match DecodeBody(afterStyle)
      case None => None
      case Some((kind, text, after)) => Some((DecodedCell(col, row, style, kind, text), after))
  }

  lemma ReferenceRoundTrip(index: nat, rowIndex: nat, u: string)
    ensures DecodeCell(CellOpen + CellReference(index, rowIndex) + "\"" + u) == DecodeAttributes(index, rowIndex, u)
  {
    var reference := CellReference(index, rowIndex);
    assert CellOpen + reference + "\"" + u == CellOpen + (reference + ['"'] + u);
    PrefixThenRest(CellOpen, reference + ['"'] + u);
    assert '"' !in reference by {
      forall i | 0 <= i < |reference| ensures reference[i] != '"' {
        assert IsLetter(reference[i]) || IsDigit(reference[i]);
      }
    }
    SplitAtFirst(reference, '"', u);
    assert (['"'] + u)[1..] == u;
    CellReferenceRoundTrip(index, rowIndex);
  }

  lemma StyleRoundTrip(style: string, rest: string)
    requires '"' !in style
    requires !StartsWith(rest, StyleOpen)
    ensures DecodeStyle(StyleAttribute(style) + rest) == Some((style, rest))
  {
    if style != "" {
      var s := StyleAttribute(style) + rest;
      assert s == StyleOpen + (style + ['"'] + rest);
      PrefixThenRest(StyleOpen, style + ['"'] + rest);
      SplitAtFirst(style, '"', rest);
      assert (['"'] + rest)[1..] == rest;
    } else {
      assert StyleAttribute(style) + rest == rest;
    }
  }

  /** Splitting at `d` a text without `d`, followed by text that starts with `d`. */
  lemma SplitBefore(a: string, d: char, b: string)
    requires d !in a && |b| > 0 && b[0] == d
    ensures SplitAt(a + b, d) == Some((a, b))
  {
    assert a + b == a + [d] + b[1..];
    SplitAtFirst(a, d, b[1..]);
    assert [d] + b[1..] == b;
  }

  lemma InlineRoundTrip(text: string, rest: string)
    ensures DecodeBody(InlineOpen + Escape(text) + InlineClose + rest) == Some((InlineString, text, rest))
  {
    var e := Escape(text);
    var after := InlineClose + rest;
    AppendAssoc(InlineOpen + e, InlineClose, rest);
    AppendAssoc(InlineOpen, e, after);
    PrefixThenRest(InlineOpen, e + after);
    assert '<' !in e;
    SplitBefore(e, '<', after);
    PrefixThenRest(InlineClose, rest);
    EscapeRoundTrip(text);
  }

  lemma NumberRoundTrip(text: string, rest: string)
    requires '<' !in text
    ensures DecodeBody(NumberOpen + text + NumberClose + rest) == Some((NumberValue, text, rest))
  {
    var after := NumberClose + rest;
    AppendAssoc(NumberOpen + text, NumberClose, rest);
    AppendAssoc(NumberOpen, text, after);
    var s := NumberOpen + (text + after);
    assert s[0] == '>';
    CharDiffers(s, InlineOpen, 0);
    PrefixThenRest(NumberOpen, text + after);
    SplitBefore(text, '<', after);
    PrefixThenRest(NumberClose, rest);
  }

  /**
    The markup of a cell reads back as its column and row, its style text, its kind (inline string
    for the type "string" and for every unrecognised type, number otherwise) and its value text,
    and nothing follows it. Whether the value was text or a number, and the name of an
    unrecognised type, are not recovered. This needs a style text without `"` (the style is not
    escaped) and, on the number path, a value without `<` (that path does not escape).
   */
  lemma CellRoundTrip(c: CellData, index: nat, rowIndex: nat, rest: string)
    requires '"' !in StyleText(c.style)
    requires NormalType(c.ctype) == NumberType ==> '<' !in ValueText(c.value)
    ensures DecodeCell(CellXml(c, index, rowIndex) + rest) == Some((CellView(c, index, rowIndex), rest))
  {
    if NormalType(c.ctype) == StringType {
      StringCellRoundTrip(index, c.value, rowIndex, StyleText(c.style), rest);
    } else {
      NumberCellRoundTrip(index, c.value, rowIndex, StyleText(c.style), rest);
    }
  }

  /**
    The converse of `CellRoundTrip`: a cell whose style text holds `"`, or a number cell whose
    value holds `<`, does not read back as itself. The `s` attribute and the number value are
    written without escaping, so the first `"` of such a style ends the attribute early and the
    first `<` of such a value ends the value early.
   */
  lemma UnescapedCellMisread(c: CellData, index: nat, rowIndex: nat, rest: string)
    requires '"' in StyleText(c.style) || (NormalType(c.ctype) == NumberType && '<' in ValueText(c.value))
    ensures DecodeCell(CellXml(c, index, rowIndex) + rest) != Some((CellView(c, index, rowIndex), rest))
  {
  }

  lemma StringCellRoundTrip(index: nat, value: CellValue, rowIndex: nat, style: string, rest: string)
    requires '"' !in style
    ensures DecodeCell(StringCellXml(index, value, rowIndex, style) + rest)
         == Some((DecodedCell(index, rowIndex, style, InlineString, ValueText(value)), rest))
  {
    var head := CellOpen + CellReference(index, rowIndex) + "\"";
    var attribute := StyleAttribute(style);
    var body := InlineOpen + Escape(ValueText(value)) + InlineClose;
    AppendAssoc(head + attribute, body, rest);
    AppendAssoc(head, attribute, body + rest);
    ReferenceRoundTrip(index, rowIndex, attribute + (body + rest));
    InlineAttributesRoundTrip(index, rowIndex, style, ValueText(value), rest);
  }

  lemma InlineAttributesRoundTrip(index: nat, rowIndex: nat, style: string, text: string, rest: string)
    requires '"' !in style
    ensures DecodeAttributes(index, rowIndex, StyleAttribute(style) + (InlineOpen + Escape(text) + InlineClose + rest))
         == Some((DecodedCell(index, rowIndex, style, InlineString, text), rest))
  {
    var body := InlineOpen + Escape(text) + InlineClose + rest;
    assert body[1] == 't';
    CharDiffers(body, StyleOpen, 1);
    StyleRoundTrip(style, body);
    InlineRoundTrip(text, rest);
  }

  lemma NumberCellRoundTrip(index: nat, value: CellValue, rowIndex: nat, style: string, rest: string)
    requires '"' !in style && '<' !in ValueText(value)
    ensures DecodeCell(NumberCellXml(index, value, rowIndex, style) + rest)
         == Some((DecodedCell(index, rowIndex, style, NumberValue, ValueText(value)), rest))
  {
    var head := CellOpen + CellReference(index, rowIndex) + "\"";
    var attribute := StyleAttribute(style);
    var body := NumberOpen + ValueText(value) + NumberClose;
    AppendAssoc(head + attribute, body, rest);
    AppendAssoc(head, attribute, body + rest);
    ReferenceRoundTrip(index, rowIndex, attribute + (body + rest));
    assert (body + rest)[0] == '>';
    CharDiffers(body + rest, StyleOpen, 0);
    StyleRoundTrip(style, body + rest);
    NumberRoundTrip(ValueText(value), rest);
  }
}

=== FILE: coordinates.dfy ===
/**
  Cell coordinates: the column letters of a zero-based column index (bijective base 26, so that
  0 is "A", 25 is "Z" and 26 is "AA") and the `r` attribute of a cell, the letters followed by the
  one-based row number (ECMA-376 Part 1, section 18.3.1.4, attribute `r` of `c`).
 */
module Coordinates {
  import opened Wrappers
  import opened Decimal

  predicate IsLetter(c: char) {
    'A' <= c <= 'Z'
  }

  predicate AllLetters(s: string) {
    forall i :: 0 <= i < |s| ==> IsLetter(s[i])
  }

  /** The `d`-th letter. The source takes the lower-case letter at code 97 + d and upper-cases it,
      which is the same character. */
  function Letter(d: nat): (c: char)
    requires d < 26
    ensures IsLetter(c) && LetterValue(c) == d
  {
    (65 + d) as char
  }

  function LetterValue(c: char): (d: nat)
    requires IsLetter(c)
    ensures d < 26
  {
    c as int - 65
  }

  /** The column letters of a zero-based column index: never empty, only `A`..`Z`, a single letter
      below 26. */
  function ColumnLetter(colIndex: nat): (r: string)
    ensures |r| >= 1 && AllLetters(r)
    ensures colIndex < 26 ==> r == [Letter(colIndex)]
  {
    var prefix := colIndex / 26;
    var letter := Letter(colIndex % 26);
    if prefix == 0 then [letter] else ColumnLetter(prefix - 1) + [letter]
  }

  /** The inverse reading of column letters: the last letter is the units digit, and the letters
      before it stand for one more than their own value, as in a bijective base-26 numeral. */
  function ColumnIndex(s: string): nat
    requires |s| >= 1 && AllLetters(s)
  {
    if |s| == 1 then LetterValue(s[0])
    else (ColumnIndex(s[..|s| - 1]) + 1) * 26 + LetterValue(s[|s| - 1])
  }

  lemma {:induction false} ColumnRoundTrip(n: nat)
    ensures ColumnIndex(ColumnLetter(n)) == n
  {
    if n >= 26 {
      var r := ColumnLetter(n);
      var head := ColumnLetter(n / 26 - 1);
      assert r[..|r| - 1] == head;
      ColumnRoundTrip(n / 26 - 1);
    }
  }

  /** Every non-empty string of capital letters names exactly one column. */
  lemma {:induction false} ColumnLetterOnto(s: string)
    requires |s| >= 1 && AllLetters(s)
    ensures ColumnLetter(ColumnIndex(s)) == s
  {
    if |s| > 1 {
      var init := s[..|s| - 1];
      var m := ColumnIndex(init);
      var d := LetterValue(s[|s| - 1]);
      var n := (m + 1) * 26 + d;
      assert n / 26 == m + 1 && n % 26 == d;
      ColumnLetterOnto(init);
      assert s == init + [s[|s| - 1]];
    }
  }

  /** Distinct columns have distinct letters. */
  lemma ColumnLetterInjective(m: nat, n: nat)
    requires ColumnLetter(m) == ColumnLetter(n)
    ensures m == n
  {
    ColumnRoundTrip(m);
    ColumnRoundTrip(n);
  }

  lemma ColumnLetterExamples()
    ensures ColumnLetter(0) == "A" && ColumnLetter(25) == "Z"
    ensures ColumnLetter(26) == "AA" && ColumnLetter(51) == "AZ" && ColumnLetter(52) == "BA"
    ensures ColumnLetter(701) == "ZZ" && ColumnLetter(702) == "AAA"
  {
    assert ColumnLetter(26) == ColumnLetter(0) + "A";
    assert ColumnLetter(51) == ColumnLetter(0) + "Z";
    assert ColumnLetter(52) == ColumnLetter(1) + "A";
    assert ColumnLetter(701) == ColumnLetter(25) + "Z";
    assert ColumnLetter(702) == ColumnLetter(26) + "A";
  }

  /** The reference of the cell at a zero-based column and a one-based row, such as "A1". */
  function CellReference(colIndex: nat, rowNumber: nat): (r: string)
    ensures |r| >= 2
    ensures forall i :: 0 <= i < |r| ==> IsLetter(r[i]) || IsDigit(r[i])
  {
    ColumnLetter(colIndex) + NatToDecimal(rowNumber)
  }

  /** The number of capital letters at the start of `s`. */
  function LetterRun(s: string): (k: nat)
    ensures k <= |s| && AllLetters(s[..k])
    ensures k < |s| ==> !IsLetter(s[k])
  {
    if s == [] || !IsLetter(s[0]) then 0 else 1 + LetterRun(s[1..])
  }

  /** Reads a cell reference back into its column index and row number. */
  function ParseCellReference(s: string): Option<(nat, nat)> {
    var k := LetterRun(s);
    if k == 0 || k == |s| || !AllDigits(s[k..]) then None
    else Some((ColumnIndex(s[..k]), DecimalValue(s[k..])))
  }

  lemma CellReferenceRoundTrip(colIndex: nat, rowNumber: nat)
    ensures ParseCellReference(CellReference(colIndex, rowNumber)) == Some((colIndex, rowNumber))
  {
    var letters, digits := ColumnLetter(colIndex), NatToDecimal(rowNumber);
    var s := letters + digits;
    var k := LetterRun(s);
    assert forall j :: 0 <= j < k ==> s[..k][j] == s[j];
    assert forall j :: 0 <= j < |letters| ==> s[j] == letters[j];
    assert s[|letters|] == digits[0];
    assert k == |letters|;
    assert s[..k] == letters && s[k..] == digits;
    ColumnRoundTrip(colIndex);
    DecimalRoundTrip(rowNumber);
  }

  /** Distinct cells have distinct references. */
  lemma CellReferenceInjective(c1: nat, r1: nat, c2: nat, r2: nat)
    requires CellReference(c1, r1) == CellReference(c2, r2)
    ensures c1 == c2 && r1 == r2
  {
    CellReferenceRoundTrip(c1, r1);
    CellReferenceRoundTrip(c2, r2);
  }

  lemma CellReferenceExamples()
    ensures CellReference(0, 1) == "A1" && CellReference(4, 10) == "E10"
  {
    assert NatToDecimal(10) == NatToDecimal(1) + "0";
  }
}

=== FILE: decimal.dfy ===
/**
  Decimal text of integers, as produced by JavaScript template interpolation (`${n}`) of an
  integral number, and its inverse.
 */
module Decimal {
  import opened Wrappers

  predicate IsDigit(c: char) {
    '0' <= c <= '9'
  }

  predicate AllDigits(s: string) {
    forall i :: 0 <= i < |s| ==> IsDigit(s[i])
  }

  function DigitChar(d: nat): (c: char)
    requires d < 10
    ensures IsDigit(c) && DigitValue(c) == d
  {
    (48 + d) as char
  }

  function DigitValue(c: char): nat
    requires IsDigit(c)
  {
    c as int - 48
  }

  /** The shortest decimal text of `n`: digits only, and no leading zero unless `n` is 0. */
  function NatToDecimal(n: nat): (r: string)
    ensures |r| >= 1 && AllDigits(r)
    ensures r[0] == '0' ==> n == 0
  {
    if n < 10 then [DigitChar(n)] else NatToDecimal(n / 10) + [DigitChar(n % 10)]
  }

  /** The value of a string of decimal digits. */
  function DecimalValue(s: string): nat
    requires AllDigits(s)
  {
    if s == [] then 0 else DecimalValue(s[..|s| - 1]) * 10 + DigitValue(s[|s| - 1])
  }

  lemma {:induction false} DecimalRoundTrip(n: nat)
    ensures DecimalValue(NatToDecimal(n)) == n
  {
    if n >= 10 {
      var r := NatToDecimal(n);
      assert r[..|r| - 1] == NatToDecimal(n / 10);
      DecimalRoundTrip(n / 10);
    }
  }

  /** Distinct numbers have distinct decimal texts. */
  lemma DecimalInjective(m: nat, n: nat)
    requires NatToDecimal(m) == NatToDecimal(n)
    ensures m == n
  {
    DecimalRoundTrip(m);
    DecimalRoundTrip(n);
  }

  /** Decimal text of an integer: a minus sign before the digits of a negative number. */
  function IntToDecimal(i: int): (r: string)
    ensures |r| >= 1
    ensures forall k :: 0 <= k < |r| ==> IsDigit(r[k]) || r[k] == '-'
  {
    if i < 0 then "-" + NatToDecimal(-i) else NatToDecimal(i)
  }

  /** Reads back a text produced by IntToDecimal; None for anything else that is not an optional
      minus sign followed by at least one digit. */
  function ParseInt(s: string): Option<int> {
    if |s| > 0 && s[0] == '-' then
      if |s| > 1 && AllDigits(s[1..]) then Some(0 - DecimalValue(s[1..]) as int) else None
    else if |s| > 0 && AllDigits(s) then Some(DecimalValue(s))
    else None
  }

  lemma IntRoundTrip(i: int)
    ensures ParseInt(IntToDecimal(i)) == Some(i)
  {
    var r := IntToDecimal(i);
    if i < 0 {
      var d := NatToDecimal(-i);
      assert r == "-" + d;
      assert r[0] == '-' && r[1..] == d;
      DecimalRoundTrip(-i);
      assert ParseInt(r) == Some(0 - DecimalValue(d) as int);
    } else {
      var d := NatToDecimal(i);
      assert r == d;
      assert IsDigit(d[0]);
      DecimalRoundTrip(i);
      assert ParseInt(r) == Some(DecimalValue(d));
    }
  }
}

=== FILE: escape.dfy ===
/**
  HTML escaping of cell text. The encoder delegates to lodash's `escape`; its internals are not part
  of this model, which takes its documented mapping: `&`, `<`, `>`, `"` and `'` become the entities
  `&amp;`, `&lt;`, `&gt;`, `&quot;` and `&#39;`, every other character is kept.
 */
module HtmlEscape {
  import opened JsString

  /** The characters the escape rewrites. */
  predicate IsSpecial(c: char) {
    c == '&' || c == '<' || c == '>' || c == '"' || c == '\''
  }

  function EscapeChar(c: char): string {
    match c
    case '&' => "&amp;"
    case '<' => "&lt;"
    case '>' => "&gt;"
    case '"' => "&quot;"
    case '\'' => "&#39;"
    case _ => [c]
  }

  /** Escaped text never holds a markup delimiter or a quote, and text without special characters
      comes out unchanged. */
  function Escape(s: string): (r: string)
    ensures forall i :: 0 <= i < |r| ==> r[i] != '<' && r[i] != '>' && r[i] != '"' && r[i] != '\''
    ensures (forall i :: 0 <= i < |s| ==> !IsSpecial(s[i])) ==> r == s
  {
    if s == [] then [] else EscapeChar(s[0]) + Escape(s[1..])
  }

  /** Decodes the five entities and leaves every other character, including a lone `&`, as it is. */
  function Unescape(s: string): string
    decreases |s|
  {
    if s == [] then []
    else if StartsWith(s, "&amp;") then "&" + Unescape(s[5..])
    else if StartsWith(s, "&lt;") then "<" + Unescape(s[4..])
    else if StartsWith(s, "&gt;") then ">" + Unescape(s[4..])
    else if StartsWith(s, "&quot;") then "\"" + Unescape(s[6..])
    else if StartsWith(s, "&#39;") then "'" + Unescape(s[5..])
    else [s[0]] + Unescape(s[1..])
  }

  lemma UnescapeChar(c: char, t: string)
    ensures Unescape(EscapeChar(c) + t) == [c] + Unescape(t)
  {
    if c == '&' {
      UnescapeAmp(t);
    } else if c == '<' {
      UnescapeLt(t);
    } else if c == '>' {
      UnescapeGt(t);
    } else if c == '"' {
      UnescapeQuot(t);
    } else if c == '\'' {
      UnescapeApos(t);
    } else {
      assert EscapeChar(c) == [c];
      UnescapeOther(c, t);
    }
  }

  lemma UnescapeAmp(t: string)
    ensures Unescape("&amp;" + t) == "&" + Unescape(t)
  {
    PrefixThenRest("&amp;", t);
  }

  /** A character that starts no entity is copied as it is. */
  lemma UnescapeOther(c: char, t: string)
    requires !IsSpecial(c)
    ensures Unescape([c] + t) == [c] + Unescape(t)
  {
    var e := [c] + t;
    assert e[0] == c && e[1..] == t;
    CharDiffers(e, "&amp;", 0);
    CharDiffers(e, "&lt;", 0);
    CharDiffers(e, "&gt;", 0);
    CharDiffers(e, "&quot;", 0);
    CharDiffers(e, "&#39;", 0);
  }

  lemma UnescapeLt(t: string)
    ensures Unescape("&lt;" + t) == "<" + Unescape(t)
  {
    var e := "&lt;" + t;
    assert e[1] == 'l';
    CharDiffers(e, "&amp;", 1);
    PrefixThenRest("&lt;", t);
  }

  lemma UnescapeGt(t: string)
    ensures Unescape("&gt;" + t) == ">" + Unescape(t)
  {
    var e := "&gt;" + t;
    assert e[1] == 'g';
    CharDiffers(e, "&amp;", 1);
    CharDiffers(e, "&lt;", 1);
    PrefixThenRest("&gt;", t);
  }

  lemma UnescapeQuot(t: string)
    ensures Unescape("&quot;" + t) == "\"" + Unescape(t)
  {
    var e := "&quot;" + t;
    assert e[1] == 'q';
    CharDiffers(e, "&amp;", 1);
    CharDiffers(e, "&lt;", 1);
    CharDiffers(e, "&gt;", 1);
    PrefixThenRest("&quot;", t);
  }

  lemma UnescapeApos(t: string)
    ensures Unescape("&#39;" + t) == "'" + Unescape(t)
  {
    var e := "&#39;" + t;
    assert e[1] == '#';
    CharDiffers(e, "&amp;", 1);
    CharDiffers(e, "&lt;", 1);
    CharDiffers(e, "&gt;", 1);
    CharDiffers(e, "&quot;", 1);
    PrefixThenRest("&#39;", t);
  }

  /** Escaping loses nothing: unescaping gives the original text back. */
  lemma {:induction false} EscapeRoundTrip(s: string)
    ensures Unescape(Escape(s)) == s
  {
    if s != [] {
      UnescapeChar(s[0], Escape(s[1..]));
      EscapeRoundTrip(s[1..]);
    }
  }

  lemma {:induction false} EscapeAppend(a: string, b: string)
    ensures Escape(a + b) == Escape(a) + Escape(b)
  {
    if a != [] {
      assert (a + b)[1..] == a[1..] + b;
      EscapeAppend(a[1..], b);
    } else {
      assert a + b == b;
    }
  }

  /** Only the five special characters change: a character outside them is copied through. */
  lemma EscapeKeepsOthers(a: string, c: char, b: string)
    requires !IsSpecial(c)
    ensures Escape(a + [c] + b) == Escape(a) + [c] + Escape(b)
  {
    EscapeAppend(a + [c], b);
    EscapeAppend(a, [c]);
    assert [c][1..] == [];
  }
}

=== FILE: fills.dfy ===
/**
  Background fills: the colour text pulled out of each style string that names a `bgColor`, and
  the `fills` element of the style part that reserves one solid fill per colour after the two
  fills every workbook starts with (ECMA-376 Part 1, section 18.8.21 `fills`).
 */
module Fills {
  import opened Wrappers
  import opened JsString
  import opened Decimal
  import opened CellMarkup

  const BgColor: string := "bgColor="
  const Quote: string := "\""

  /** `style.indexOf('bgColor=') > -1`. */
  predicate HasBgColor(style: string) {
    IndexOf(style, BgColor, 0) > -1
  }

  /**
    The colour text of one style: from just after the first `"` at or after `bgColor=` up to the
    next `"`. Missing quotes are not special-cased: `indexOf` gives -1 and `substring` clamps.
   */
  function ExtractFill(style: string): (r: string)
    ensures |r| <= |style|
  {
    var open := IndexOf(style, Quote, IndexOf(style, BgColor, 0));
    var close := IndexOf(style, Quote, open + 1);
    Substring(style, open + 1, close)
  }

  /** How many of the styles name a background colour. */
  function CountBg(styles: seq<string>): (r: nat)
    ensures r <= |styles|
  {
    if styles == [] then 0
    else CountBg(styles[..|styles| - 1]) + (if HasBgColor(styles[|styles| - 1]) then 1 else 0)
  }

  /** No style is counted exactly when none names a background colour, and then there are no
      background fills. */
  lemma {:induction false} CountBgZero(styles: seq<string>)
    ensures CountBg(styles) == 0 <==> forall i :: 0 <= i < |styles| ==> !HasBgColor(styles[i])
    ensures CountBg(styles) == 0 <==> BackgroundFills(styles) == []
    decreases |styles|
  {
    if styles != [] {
      var init := styles[..|styles| - 1];
      CountBgZero(init);
      assert forall i :: 0 <= i < |init| ==> init[i] == styles[i];
    }
  }

  /** The styles that name a background colour, in their order. */
  function BgStyles(styles: seq<string>): (r: seq<string>)
    ensures |r| == CountBg(styles)
    ensures forall j :: 0 <= j < |r| ==> HasBgColor(r[j])
  {
    if styles == [] then []
    else
      var last := styles[|styles| - 1];
      BgStyles(styles[..|styles| - 1]) + (if HasBgColor(last) then [last] else [])
  }

  /** The colour texts of the styles that name a background colour: one per such style. */
  function BackgroundFills(styles: seq<string>): (r: seq<string>)
    ensures |r| == CountBg(styles)
  {
    if styles == [] then []
    else
      var last := styles[|styles| - 1];
      BackgroundFills(styles[..|styles| - 1]) + (if HasBgColor(last) then [ExtractFill(last)] else [])
  }

  /** The `j`-th colour text is taken from the `j`-th style that names a background colour. */
  lemma {:induction false} FillsFromBgStyles(styles: seq<string>)
    ensures |BackgroundFills(styles)| == |BgStyles(styles)|
    ensures forall j :: 0 <= j < |BgStyles(styles)| ==> BackgroundFills(styles)[j] == ExtractFill(BgStyles(styles)[j])
    decreases |styles|
  {
    if styles != [] {
      FillsFromBgStyles(styles[..|styles| - 1]);
    }
  }

  /** One more style adds its colour text when it names a background colour. */
  lemma BackgroundFillsStep(styles: seq<string>, i: nat)
    requires i < |styles|
    ensures BackgroundFills(styles[..i + 1])
      == BackgroundFills(styles[..i]) + (if HasBgColor(styles[i]) then [ExtractFill(styles[i])] else [])
  {
    assert styles[..i + 1][..i] == styles[..i];
  }

  /** The loop over `styles` that collects the background fills. */
  method ExtractBackgroundFills(styles: seq<string>) returns (backgroundFills: seq<string>)
    ensures backgroundFills == BackgroundFills(styles)
  {
    backgroundFills := [];
    for i := 0 to |styles|
      invariant backgroundFills == BackgroundFills(styles[..i])
    {
      BackgroundFillsStep(styles, i);
      if IndexOf(styles[i], BgColor, 0) > -1 {
        var openingQuoteIndex := IndexOf(styles[i], Quote, IndexOf(styles[i], BgColor, 0));
        var closingQuoteIndex := IndexOf(styles[i], Quote, openingQuoteIndex + 1);
        var fill := Substring(styles[i], openingQuoteIndex + 1, closingQuoteIndex);
        backgroundFills := backgroundFills + [fill];
      }
    }
    assert styles[..|styles|] == styles;
  }

  lemma QuoteMatch(s: string, k: int)
    ensures MatchAt(s, Quote, k) <==> 0 <= k < |s| && s[k] == '"'
  {
    if 0 <= k < |s| {
      assert s[k..k + 1] == [s[k]];
    }
  }

  lemma NoQuoteMatch(s: string, from: int)
    requires '"' !in s
    ensures IndexOf(s, Quote, from) == -1
  {
    var r := IndexOf(s, Quote, from);
    if r != -1 {
      QuoteMatch(s, r);
    }
  }

  /**
    A style `p bgColor="v" q`, where `p` holds no earlier `bgColor=` and the colour holds no
    quote, yields exactly the colour.
   */
  lemma QuotedFill(p: string, v: string, q: string)
    requires IndexOf(p + BgColor, BgColor, 0) == |p|
    requires '"' !in v
    ensures HasBgColor(p + BgColor + Quote + v + Quote + q)
    ensures ExtractFill(p + BgColor + Quote + v + Quote + q) == v
  {
    var s := p + BgColor + Quote + v + Quote + q;
    var n := |p|;
    BgColorFirst(p, Quote + v + Quote + q);
    assert p + BgColor + (Quote + v + Quote + q) == s;
    var x := p + BgColor;
    forall i | n <= i < |x| ensures x[i] != '"' {
      assert x[i] == BgColor[i - n];
    }
    QuoteNext(x, v + Quote + q, n);
    assert x + Quote + (v + Quote + q) == s;
    var y := x + Quote + v;
    forall i | n + 9 <= i < |y| ensures y[i] != '"' {
      assert y[i] == v[i - n - 9];
    }
    QuoteNext(y, q, n + 9);
    AppendAssoc(x + Quote + v, Quote, q);
    MiddleSlice(x + Quote, v, Quote + q);
  }

  /** The first `bgColor=` of `p + bgColor= + rest` is the one after `p`, when `p` holds none. */
  lemma BgColorFirst(p: string, rest: string)
    requires IndexOf(p + BgColor, BgColor, 0) == |p|
    ensures IndexOf(p + BgColor + rest, BgColor, 0) == |p|
  {
    var s := p + BgColor + rest;
    var n := |p|;
    assert s[..n + 8] == p + BgColor;
    forall k | 0 <= k < n ensures !MatchAt(s, BgColor, k) {
      assert !MatchAt(p + BgColor, BgColor, k);
      assert s[k..k + 8] == (p + BgColor)[k..k + 8];
    }
    assert s[n..n + 8] == BgColor;
    FirstMatchFrom(s, BgColor, 0, n);
  }

  /** Searching for a quote from a position after which `x` holds none finds the one after `x`. */
  lemma QuoteNext(x: string, rest: string, from: nat)
    requires from <= |x|
    requires forall i :: from <= i < |x| ==> x[i] != '"'
    ensures IndexOf(x + Quote + rest, Quote, from) == |x|
  {
    var s := x + Quote + rest;
    forall k | from <= k < |x| ensures !MatchAt(s, Quote, k) {
      QuoteMatch(s, k);
      assert s[k] == x[k];
    }
    QuoteMatch(s, |x|);
    FirstMatchFrom(s, Quote, from, |x|);
  }

  /** Proof helper: the middle of a three-piece concatenation is its middle piece. */
  lemma MiddleSlice(x: string, v: string, y: string)
    ensures (x + v + y)[|x|..|x| + |v|] == v
  {
  }

  /** A style that names `bgColor=` without any quote yields the empty colour text. */
  lemma UnquotedFill(style: string)
    requires '"' !in style
    ensures ExtractFill(style) == ""
  {
    NoQuoteMatch(style, IndexOf(style, BgColor, 0));
    NoQuoteMatch(style, 0);
  }

  // ---------------------------------------------------------------------------------------------
  // The `fills` element

  const FillsHead: string := "<fills count=\""
  const FillsDefaults: string := "><fill /><fill><patternFill patternType=\"gray125\"/></fill>"
  const FillsClose: string := "</fills>"
  const FillHead: string := "<fill><patternFill patternType=\"solid\"><fgColor indexed=\""
  const FillTail: string := "/></patternFill></fill>"

  /** The solid fill reserved for the `i`-th background colour. */
  function FillElement(i: nat): string {
    FillHead + NatToDecimal(i) + Quote + FillTail
  }

  function FillElements(n: nat): (r: seq<string>)
    ensures |r| == n
  {
    seq(n, i requires 0 <= i < n => FillElement(i))
  }

  /** The `fills` element for the given background colours: the count, the two default fills,
      one solid fill per colour. The colours themselves do not appear. */
  function FillsXml(fills: seq<string>): string {
    FillsHead + NatToDecimal(|fills| + 2) + Quote + FillsDefaults + Join(FillElements(|fills|)) + FillsClose
  }

  /** The loop that builds `fillsString`. */
  method FillsFragment(backgroundFills: seq<string>) returns (fillsString: string)
    ensures fillsString == FillsXml(backgroundFills)
  {
    var head := FillsHead + NatToDecimal(|backgroundFills| + 2) + Quote + FillsDefaults;
    var elements := FillElements(|backgroundFills|);
    fillsString := head;
    for i := 0 to |backgroundFills|
      invariant fillsString == head + Join(elements[..i])
    {
      JoinPrefixStep(elements, i);
      AppendAssoc(head, Join(elements[..i]), FillElement(i));
      fillsString := fillsString + FillElement(i);
    }
    assert elements[..|backgroundFills|] == elements;
    fillsString := fillsString + FillsClose;
  }

  /** The number in the attribute whose opening text `head` starts `s`, up to the next `"`. */
  function NumberAfter(s: string, head: string): Option<nat> {
    if !StartsWith(s, head) then None
    else match SplitAt(s[|head|..], '"')
      case None => None
      case Some((digits, _)) => if digits != [] && AllDigits(digits) then Some(DecimalValue(digits)) else None
  }

  /** The number in the `count` attribute at the start of a `fills` element. */
  function FillsCount(s: string): Option<nat> {
    NumberAfter(s, FillsHead)
  }

  /** The number in the `indexed` attribute of a solid fill. */
  function FillIndex(s: string): Option<nat> {
    NumberAfter(s, FillHead)
  }

  /** A number written in decimal and closed by a quote is read back after its head. */
  lemma NumberAfterRoundTrip(head: string, n: nat, rest: string)
    ensures NumberAfter(head + (NatToDecimal(n) + Quote + rest), head) == Some(n)
  {
    var digits := NatToDecimal(n);
    PrefixThenRest(head, digits + Quote + rest);
    assert '"' !in digits by {
      forall i | 0 <= i < |digits| ensures digits[i] != '"' {
        assert IsDigit(digits[i]);
      }
    }
    SplitAtFirst(digits, '"', rest);
    DecimalRoundTrip(n);
  }

  /** Proof helper: `a + b + c + d + e + f`, as JavaScript groups it, is
      `a + (b + c + (d + e + f))`. */
  lemma GroupAfterHead(a: string, b: string, c: string, d: string, e: string, f: string)
    ensures a + b + c + d + e + f == a + (b + c + (d + e + f))
  {
  }

  /** The `count` attribute is two more than the number of background colours. */
  lemma FillsCountRoundTrip(fills: seq<string>)
    ensures FillsCount(FillsXml(fills)) == Some(|fills| + 2)
  {
    var digits := NatToDecimal(|fills| + 2);
    var elements := Join(FillElements(|fills|));
    GroupAfterHead(FillsHead, digits, Quote, FillsDefaults, elements, FillsClose);
    NumberAfterRoundTrip(FillsHead, |fills| + 2, FillsDefaults + elements + FillsClose);
  }

  /** The `fills` element of a list of styles declares two fills more than there are styles naming
      a background colour. */
  lemma StylesFillsCount(styles: seq<string>)
    ensures FillsCount(FillsXml(BackgroundFills(styles))) == Some(CountBg(styles) + 2)
  {
    FillsCountRoundTrip(BackgroundFills(styles));
  }

  /** The `i`-th solid fill says `indexed="i"`. */
  lemma FillsIndexed(n: nat, i: nat)
    requires i < n
    ensures FillIndex(FillElements(n)[i]) == Some(i)
  {
    assert FillElements(n)[i] == FillHead + (NatToDecimal(i) + Quote + FillTail);
    NumberAfterRoundTrip(FillHead, i, FillTail);
  }

  /** Only the number of colours reaches the `fills` element, not the colours. */
  lemma FillsIgnoreColours(a: seq<string>, b: seq<string>)
    requires |a| == |b|
    ensures FillsXml(a) == FillsXml(b)
  {
  }

  /** With no styles there are no background fills, and the element holds the two defaults. */
  lemma NoStylesTwoFills()
    ensures BackgroundFills([]) == []
    ensures FillsXml(BackgroundFills([])) == FillsHead + "2" + Quote + FillsDefaults + FillsClose
  {
    assert FillElements(0) == [];
    assert NatToDecimal(2) == "2";
  }
}

=== FILE: jsstring.dfy ===
/**
  The JavaScript string operations the encoder relies on: `indexOf`, `substring`, and `replace`
  with a string pattern, including the `$` patterns that `replace` expands in its replacement text.
 */
module JsString {

  predicate StartsWith(s: string, p: string) {
    |p| <= |s| && s[..|p|] == p
  }

  /** A string does not start with a pattern that differs from it at some position. */
  lemma CharDiffers(s: string, p: string, k: nat)
    requires k < |s| && k < |p| && s[k] != p[k]
    ensures !StartsWith(s, p)
  {
    if |p| <= |s| {
      assert s[..|p|][k] == s[k];
    }
  }

  lemma PrefixThenRest(p: string, t: string)
    ensures StartsWith(p + t, p) && (p + t)[|p|..] == t
  {
  }

  /** A position argument clamped into `0..len`, as `indexOf` and `substring` do. */
  function Clamp(x: int, len: nat): (r: nat)
    ensures r <= len
    ensures 0 <= x <= len ==> r == x
  {
    if x < 0 then 0 else if x > len then len else x
  }

  /** `pat` occurs in `s` at position `k`. */
  predicate MatchAt(s: string, pat: string, k: int) {
    0 <= k && k + |pat| <= |s| && s[k..k + |pat|] == pat
  }

  /** The first position at or after `i` where `pat` occurs in `s`, or -1. */
  function FindFrom(s: string, pat: string, i: nat): (r: int)
    ensures r == -1 || (i <= r && MatchAt(s, pat, r))
    ensures forall k :: i <= k && (r == -1 || k < r) ==> !MatchAt(s, pat, k)
    decreases |s| - i
  {
    if i + |pat| > |s| then -1
    else if s[i..i + |pat|] == pat then i
    else FindFrom(s, pat, i + 1)
  }

  /** `indexOf` finds the first occurrence at or after the start position. */
  lemma FirstMatchFrom(s: string, pat: string, from: nat, n: nat)
    requires from <= n && MatchAt(s, pat, n)
    requires forall k :: from <= k < n ==> !MatchAt(s, pat, k)
    ensures IndexOf(s, pat, from) == n
  {
  }

  /** `s.indexOf(pat, from)`. */
  function IndexOf(s: string, pat: string, from: int): (r: int)
    ensures r == -1 || (Clamp(from, |s|) <= r && MatchAt(s, pat, r))
    ensures forall k :: Clamp(from, |s|) <= k && (r == -1 || k < r) ==> !MatchAt(s, pat, k)
  {
    FindFrom(s, pat, Clamp(from, |s|))
  }

  /** `s.substring(a, b)`: both ends clamped into the string, and swapped when `a > b`. */
  function Substring(s: string, a: int, b: int): (r: string)
    ensures Clamp(a, |s|) <= Clamp(b, |s|) ==> r == s[Clamp(a, |s|)..Clamp(b, |s|)]
    ensures Clamp(b, |s|) <= Clamp(a, |s|) ==> r == s[Clamp(b, |s|)..Clamp(a, |s|)]
  {
    var i, j := Clamp(a, |s|), Clamp(b, |s|);
    if i <= j then s[i..j] else s[j..i]
  }

  /**
    The text that `replace` inserts for the replacement string `repl` when the pattern matched
    `matched`, with `before` and `after` the text around the match: `$$` stands for `$`, `$&` for
    the match, `` $` `` for the text before it and `$'` for the text after it. With a string pattern
    there are no capture groups, so every other `$` is copied as it is.
   */
  function Substitute(repl: string, matched: string, before: string, after: string): (r: string)
    ensures (forall i :: 0 <= i < |repl| ==> repl[i] != '$') ==> r == repl
    decreases |repl|
  {
    if repl == [] then []
    else if repl[0] == '$' && |repl| >= 2 && repl[1] == '$' then "$" + Substitute(repl[2..], matched, before, after)
    else if repl[0] == '$' && |repl| >= 2 && repl[1] == '&' then matched + Substitute(repl[2..], matched, before, after)
    else if repl[0] == '$' && |repl| >= 2 && repl[1] == '`' then before + Substitute(repl[2..], matched, before, after)
    else if repl[0] == '$' && |repl| >= 2 && repl[1] == '\'' then after + Substitute(repl[2..], matched, before, after)
    else [repl[0]] + Substitute(repl[1..], matched, before, after)
  }

  /** A character other than `$` is copied, and the substitution goes on after it. */
  lemma SubstituteCons(c: char, t: string, matched: string, before: string, after: string)
    requires c != '$'
    ensures Substitute([c] + t, matched, before, after) == [c] + Substitute(t, matched, before, after)
  {
    assert ([c] + t)[0] == c && ([c] + t)[1..] == t;
  }

  /** Text without `$` passes through the substitution untouched, whatever follows it. */
  lemma {:induction false} SubstitutePlainPrefix(a: string, b: string, matched: string, before: string, after: string)
    requires forall i :: 0 <= i < |a| ==> a[i] != '$'
    ensures Substitute(a + b, matched, before, after) == a + Substitute(b, matched, before, after)
    decreases |a|
  {
    if a == [] {
      assert a + b == b;
    } else {
      var rest := Substitute(b, matched, before, after);
      AppendAssoc([a[0]], a[1..], b);
      assert [a[0]] + a[1..] == a;
      SubstituteCons(a[0], a[1..] + b, matched, before, after);
      SubstitutePlainPrefix(a[1..], b, matched, before, after);
      AppendAssoc([a[0]], a[1..], rest);
    }
  }

  /** `s.replace(pat, repl)` with a string pattern: only the first occurrence is replaced. */
  function ReplaceFirst(s: string, pat: string, repl: string): (r: string)
    ensures IndexOf(s, pat, 0) == -1 ==> r == s
    ensures IndexOf(s, pat, 0) != -1 && (forall i :: 0 <= i < |repl| ==> repl[i] != '$') ==>
      r == s[..IndexOf(s, pat, 0)] + repl + s[IndexOf(s, pat, 0) + |pat|..]
  {
    var p := IndexOf(s, pat, 0);
    if p == -1 then s
    else s[..p] + Substitute(repl, pat, s[..p], s[p + |pat|..]) + s[p + |pat|..]
  }

  /** When the pattern's first character does not occur before it, `replace` on a template
      `head + pat + tail` splices the substituted replacement in exactly where `pat` stood. */
  lemma ReplaceFirstSplice(head: string, pat: string, tail: string, repl: string)
    requires |pat| > 0
    requires forall i :: 0 <= i < |head| ==> head[i] != pat[0]
    ensures ReplaceFirst(head + pat + tail, pat, repl) == head + Substitute(repl, pat, head, tail) + tail
  {
    var s := head + pat + tail;
    var n := |head|;
    assert s[n..n + |pat|] == pat;
    forall k | 0 <= k < n ensures !MatchAt(s, pat, k) {
      assert s[k] == head[k];
      if k + |pat| <= |s| {
        assert s[k..k + |pat|][0] == s[k];
      }
    }
    FirstMatchFrom(s, pat, 0, n);
    assert s[..n] == head && s[n + |pat|..] == tail;
  }

  /** When the pattern does not occur at all, `replace` returns the text unchanged. */
  lemma ReplaceFirstAbsent(s: string, pat: string, repl: string)
    requires forall k :: !MatchAt(s, pat, k)
    ensures ReplaceFirst(s, pat, repl) == s
  {
  }

  /** `parts.join('')`: the parts one after the other, without separators. */
  function Join(parts: seq<string>): string
    decreases |parts|
  {
    if parts == [] then "" else parts[0] + Join(parts[1..])
  }

  lemma {:induction false} JoinAppend(parts: seq<string>, p: string)
    ensures Join(parts + [p]) == Join(parts) + p
    decreases |parts|
  {
    if parts == [] {
      assert Join([p]) == p + Join([]);
    } else {
      assert (parts + [p])[0] == parts[0] && (parts + [p])[1..] == parts[1..] + [p];
      JoinAppend(parts[1..], p);
    }
  }

  /** The first part of a join, then the join of the others and whatever follows. */
  lemma JoinFirst(parts: seq<string>, rest: string)
    requires |parts| > 0
    ensures Join(parts) + rest == parts[0] + (Join(parts[1..]) + rest)
  {
    AppendAssoc(parts[0], Join(parts[1..]), rest);
  }

  lemma JoinPrefixStep(parts: seq<string>, k: nat)
    requires k < |parts|
    ensures Join(parts[..k + 1]) == Join(parts[..k]) + parts[k]
  {
    assert parts[..k + 1] == parts[..k] + [parts[k]];
    JoinAppend(parts[..k], parts[k]);
  }

  // ---------------------------------------------------------------------------------------------
  // Proof helpers. The lemmas below say nothing about the encoder: each is a regrouping of a
  // concatenation or a fact about slicing that the solver may fail to find on its own in a long
  // proof. Dafny proves each without help; the proofs elsewhere call them as explicit steps.

  lemma AppendAssoc(a: string, b: string, c: string)
    ensures (a + b) + c == a + (b + c)
  {
  }

  lemma AppendRegroup(a: string, b: string, c: string, d: string, e: string)
    ensures a + ((b + c) + d) + e == ((a + b) + c) + (d + e)
  {
  }

  lemma SliceCons<T>(s: seq<T>, k: nat)
    requires k < |s|
    ensures s[k..] == [s[k]] + s[k + 1..]
  {
  }

  lemma SliceTail<T>(s: seq<T>, k: nat)
    requires k < |s|
    ensures s[k..][0] == s[k] && s[k..][1..] == s[k + 1..]
  {
  }

  lemma SeqOne<T>(s: seq<T>)
    requires |s| == 1
    ensures s == [s[0]]
  {
  }

  lemma SeqTwo<T>(s: seq<T>)
    requires |s| == 2
    ensures s == [s[0], s[1]]
  {
  }
}

=== FILE: package.dfy ===
/**
  The `zipcelx` entry point: it checks the configuration, then adds the parts of a SpreadsheetML
  package (ECMA-376 Part 1) one after another to an archive (the workbook, its relationships, the
  package relationships, the content types, the single worksheet and the style part) and names the
  download after the configured file name.
 */
module Package {
  import opened Wrappers
  import opened JsString
  import opened CellMarkup
  import opened Worksheet
  import opened Fills
  import opened Validation

  // ---------------------------------------------------------------------------------------------
  // The static parts

  /** The texts `zipcelx` writes unchanged, or only fills in: the workbook, its relationships, the
      package relationships, the content types, the worksheet template as the text before and
      after its placeholder, the style part's template and the text put inside it. */
  datatype StaticTexts = StaticTexts(
    workbook: string,
    workbookRels: string,
    rels: string,
    contentTypes: string,
    sheetHead: string,
    sheetTail: string,
    styleTemplate: string,
    styleInner: string)

  const WorkbookXml: string := "<?xml version=\"1.0\" encoding=\"UTF-8\" standalone=\"yes\"?>\n<workbook xmlns=\"http://schemas.openxmlformats.org/spreadsheetml/2006/main\" xmlns:r=\"http://schemas.openxmlformats.org/officeDocument/2006/relationships\" xmlns:mx=\"http://schemas.microsoft.com/office/mac/excel/2008/main\" xmlns:mc=\"http://schemas.openxmlformats.org/markup-compatibility/2006\" xmlns:mv=\"urn:schemas-microsoft-com:mac:vml\" xmlns:x14=\"http://schemas.microsoft.com/office/spreadsheetml/2009/9/main\" xmlns:x14ac=\"http://schemas.microsoft.com/office/spreadsheetml/2009/9/ac\" xmlns:xm=\"http://schemas.microsoft.com/office/excel/2006/main\"><workbookPr/><sheets><sheet state=\"visible\" name=\"Sheet1\" sheetId=\"1\" r:id=\"rId3\"/></sheets><definedNames/><calcPr/></workbook>"

  const WorkbookRelsXml: string := "<?xml version=\"1.0\" ?>\n<Relationships xmlns=\"http://schemas.openxmlformats.org/package/2006/relationships\">\n<Relationship Id=\"rId3\" Target=\"worksheets/sheet1.xml\" Type=\"http://schemas.openxmlformats.org/officeDocument/2006/relationships/worksheet\"/>\n<Relationship Id=\"rId4\" Type=\"http://schemas.openxmlformats.org/officeDocument/2006/relationships/styles\" Target=\"styles.xml\" />\n</Relationships>"

  const RelsXml: string := "<?xml version=\"1.0\" encoding=\"UTF-8\" standalone=\"yes\"?>\n<Relationships xmlns=\"http://schemas.openxmlformats.org/package/2006/relationships\"><Relationship Id=\"rId1\" Type=\"http://schemas.openxmlformats.org/officeDocument/2006/relationships/officeDocument\" Target=\"xl/workbook.xml\"/></Relationships>"

  const ContentTypesXml: string := "<?xml version=\"1.0\" ?>\n<Types xmlns=\"http://schemas.openxmlformats.org/package/2006/content-types\">\n<Default ContentType=\"application/xml\" Extension=\"xml\"/>\n<Default ContentType=\"application/vnd.openxmlformats-package.relationships+xml\" Extension=\"rels\"/>\n<Override ContentType=\"application/vnd.openxmlformats-officedocument.spreadsheetml.worksheet+xml\" PartName=\"/xl/worksheets/sheet1.xml\"/>\n<Override ContentType=\"application/vnd.openxmlformats-officedocument.spreadsheetml.sheet.main+xml\" PartName=\"/xl/workbook.xml\"/>\n<Override ContentType=\"application/vnd.openxmlformats-officedocument.spreadsheetml.styles+xml\" PartName=\"/xl/styles.xml\"/>\n</Types>"

  /** The style part's template: the text before its `{placeholder}`, and the text after it. */
  const StyleHead: string := "<?xml version=\"1.0\" encoding=\"utf-8\" standalone=\"yes\"?>\n<styleSheet xmlns=\"http://schemas.openxmlformats.org/spreadsheetml/2006/main\" xmlns:x14ac=\"http://schemas.microsoft.com/office/spreadsheetml/2009/9/ac\">"

  const StyleTail: string := "</styleSheet>"

  const StyleTemplate: string := StyleHead + Placeholder + StyleTail

  /** The fonts, fills, borders and cell formats put inside the style part. Its `fills` element is
      fixed and it holds no `{fillsPlaceholder}`. */
  const StyleInner: string := "\n<fonts count=\"1\" x14ac:knownFonts=\"1\">\n    <font>\n        <sz val=\"11\"/>\n        <color theme=\"1\"/>\n        <name val=\"Calibri\"/>\n        <family val=\"2\"/>\n        <scheme val=\"minor\"/>\n    </font>\n</fonts>\n<fills count=\"2\">\n    <fill>\n        <patternFill patternType=\"none\"/>\n    </fill>\n    <fill>\n        <patternFill patternType=\"gray125\"/>\n    </fill>\n</fills>\n<borders count=\"1\">\n    <border>\n        <left/>\n        <right/>\n        <top/>\n        <bottom/>\n        <diagonal/>\n    </border>\n</borders>\n<cellStyleXfs count=\"1\">\n    <xf numFmtId=\"0\" fontId=\"0\" fillId=\"0\" borderId=\"0\"/>\n</cellStyleXfs>\n<cellXfs count=\"2\">\n    <xf numFmtId=\"0\" fontId=\"0\" fillId=\"0\" borderId=\"0\" xfId=\"0\"/>\n    <xf numFmtId=\"0\" fontId=\"0\" fillId=\"0\" borderId=\"0\" xfId=\"0\" applyAlignment=\"1\">\n        <alignment wrapText=\"1\"/>\n    </xf>\n</cellXfs>\n<cellStyles count=\"1\">\n    <cellStyle name=\"Normal\" xfId=\"0\" builtinId=\"0\"/>\n</cellStyles>\n<dxfs count=\"0\"/>\n<tableStyles count=\"0\" defaultTableStyle=\"TableStyleMedium2\" defaultPivotStyle=\"PivotStyleLight16\"/>\n<extLst>\n    <ext uri=\"{EB79DEF2-80B8-43e5-95BD-54CBDDF9020C}\"\n         xmlns:x14=\"http://schemas.microsoft.com/office/spreadsheetml/2009/9/main\">\n        <x14:slicerStyles defaultSlicerStyle=\"SlicerStyleLight1\"/>\n    </ext>\n    <ext uri=\"{9260A510-F301-46a8-8635-F512D64BE5F5}\"\n         xmlns:x15=\"http://schemas.microsoft.com/office/spreadsheetml/2010/11/main\">\n        <x15:timelineStyles defaultTimelineStyle=\"TimeSlicerStyleLight1\"/>\n    </ext>\n</extLst>"

  const FillsPlaceholder: string := "{fillsPlaceholder}"

  /** The library's own static texts. */
  const Library: StaticTexts :=
    StaticTexts(WorkbookXml, WorkbookRelsXml, RelsXml, ContentTypesXml, SheetHead, SheetTail, StyleTemplate, StyleInner)

  // ---------------------------------------------------------------------------------------------
  // The style part

  /** `styleInnerTemplate.replace('{fillsPlaceholder}', fillsString)`. */
  function StyleData(texts: StaticTexts, fillsString: string): (r: string)
    ensures (forall k :: !MatchAt(texts.styleInner, FillsPlaceholder, k)) ==> r == texts.styleInner
  {
    ReplaceFirst(texts.styleInner, FillsPlaceholder, fillsString)
  }

  /** `styleTemplate.replace('{placeholder}', styleData)`. */
  function StyleFile(texts: StaticTexts, fillsString: string): string {
    ReplaceFirst(texts.styleTemplate, Placeholder, StyleData(texts, fillsString))
  }

  /**
    For a style template whose text before `{placeholder}` holds no `{`, and inner text that holds
    neither `{fillsPlaceholder}` nor `$`, the two replacements leave the inner text as it is and
    put it where the placeholder stood: the fills fragment does not reach the style part.
   */
  lemma StyleSplice(texts: StaticTexts, head: string, tail: string, fillsString: string)
    requires texts.styleTemplate == head + Placeholder + tail
    requires forall i :: 0 <= i < |head| ==> head[i] != '{'
    requires forall k :: !MatchAt(texts.styleInner, FillsPlaceholder, k)
    requires forall i :: 0 <= i < |texts.styleInner| ==> texts.styleInner[i] != '$'
    ensures StyleFile(texts, fillsString) == head + texts.styleInner + tail
  {
    ReplaceFirstAbsent(texts.styleInner, FillsPlaceholder, fillsString);
    ReplaceFirstSplice(head, Placeholder, tail, texts.styleInner);
  }

  /** The style part for the collected styles: their background fills, the `fills` element for
      them, and the two replacements. */
  method BuildStyleFile(texts: StaticTexts, styles: seq<string>) returns (styleFile: string)
    ensures styleFile == StyleFile(texts, FillsXml(BackgroundFills(styles)))
  {
    var backgroundFills := ExtractBackgroundFills(styles);
    var fillsString := FillsFragment(backgroundFills);
    var styleData := ReplaceFirst(texts.styleInner, FillsPlaceholder, fillsString);
    styleFile := ReplaceFirst(texts.styleTemplate, Placeholder, styleData);
  }

  /** With no styles collected, the fills fragment declares just the two default fills. */
  lemma NoStylesFillsCount()
    ensures FillsCount(FillsXml(BackgroundFills([]))) == Some(2)
  {
    FillsCountRoundTrip(BackgroundFills([]));
  }

  // ---------------------------------------------------------------------------------------------
  // The package

  /** A file of the archive: its path inside the package and its text. */
  datatype Part = Part(path: string, content: string)

  /** What the download holds: its file name and the parts in the order they were added. */
  datatype Download = Download(fileName: string, parts: seq<Part>)

  const WorkbookPath: string := "xl/workbook.xml"
  const WorkbookRelsPath: string := "xl/_rels/workbook.xml.rels"
  const RelsPath: string := "_rels/.rels"
  const ContentTypesPath: string := "[Content_Types].xml"
  const SheetPath: string := "xl/worksheets/sheet1.xml"
  const StylesPath: string := "xl/styles.xml"

  /** The archive being filled: each `file` call adds one part at the end. */
  class Archive {
    var files: seq<Part>

    constructor ()
      ensures files == []
    {
      files := [];
    }

    method File(path: string, content: string)
      modifies this
      ensures files == old(files) + [Part(path, content)]
    {
      files := files + [Part(path, content)];
    }
  }

  /** The parts of the archive, in the order they are added, around a given worksheet text. */
  function ArchiveParts(texts: StaticTexts, worksheet: string): (r: seq<Part>)
    ensures |r| == 6 && r[4] == Part(SheetPath, worksheet)
  {
    [ Part(WorkbookPath, texts.workbook),
      Part(WorkbookRelsPath, texts.workbookRels),
      Part(RelsPath, texts.rels),
      Part(ContentTypesPath, texts.contentTypes),
      Part(SheetPath, worksheet),
      Part(StylesPath, StyleFile(texts, FillsXml(BackgroundFills([])))) ]
  }

  /** The parts of the package for a sheet in the given states. */
  function Parts(texts: StaticTexts, rows: seq<seq<CellData>>): seq<Part> {
    ArchiveParts(texts, texts.sheetHead + RowsXml(rows) + texts.sheetTail)
  }

  /** Only the worksheet part depends on the worksheet text. */
  lemma OtherPartsFixed(texts: StaticTexts, a: string, b: string, i: nat)
    requires i < 6 && i != 4
    ensures ArchiveParts(texts, a)[i] == ArchiveParts(texts, b)[i]
  {
  }

  /** The text of the first part with the given path. */
  function Lookup(parts: seq<Part>, path: string): (r: Option<string>)
    ensures r.None? <==> forall i :: 0 <= i < |parts| ==> parts[i].path != path
    ensures r.Some? ==> exists i :: 0 <= i < |parts| && parts[i] == Part(path, r.value)
    decreases |parts|
  {
    if parts == [] then None
    else if parts[0].path == path then Some(parts[0].content)
    else Lookup(parts[1..], path)
  }

  /** No two parts share a path, so each path names exactly one part. */
  lemma PartPathsDistinct(texts: StaticTexts, rows: seq<seq<CellData>>)
    ensures forall i, j :: 0 <= i < j < |Parts(texts, rows)| ==> Parts(texts, rows)[i].path != Parts(texts, rows)[j].path
  {
  }

  /** Looking up the worksheet's path finds the worksheet part. */
  lemma LookupSheet(texts: StaticTexts, rows: seq<seq<CellData>>)
    ensures Lookup(Parts(texts, rows), SheetPath) == Some(texts.sheetHead + RowsXml(rows) + texts.sheetTail)
  {
    LookupWorksheet(texts, texts.sheetHead + RowsXml(rows) + texts.sheetTail);
  }

  lemma LookupWorksheet(texts: StaticTexts, worksheet: string)
    ensures Lookup(ArchiveParts(texts, worksheet), SheetPath) == Some(worksheet)
  {
    var parts := ArchiveParts(texts, worksheet);
    var r := Lookup(parts, SheetPath);
    var i :| 0 <= i < |parts| && parts[i] == Part(SheetPath, r.value);
    assert |SheetPath| == 24;
    assert i == 4;
  }

  /** The worksheet part reads back as the rows of the sheet, and the other parts do not depend
      on the sheet at all. */
  lemma SheetPartRoundTrip(texts: StaticTexts, rows: seq<seq<CellData>>, other: seq<seq<CellData>>)
    requires forall i :: 0 <= i < |rows| ==> RowDecodable(rows[i])
    requires DecodeRow(texts.sheetTail).None?
    ensures Lookup(Parts(texts, rows), SheetPath).Some?
    ensures DecodeDocument(Lookup(Parts(texts, rows), SheetPath).value, texts.sheetHead, texts.sheetTail)
      == Some(SheetView(rows))
    ensures forall i :: 0 <= i < |Parts(texts, rows)| && Parts(texts, rows)[i].path != SheetPath ==>
      Parts(texts, rows)[i] == Parts(texts, other)[i]
  {
    LookupSheet(texts, rows);
    DocumentRoundTrip(texts.sheetHead, texts.sheetTail, rows);
    forall i | 0 <= i < |Parts(texts, rows)| && Parts(texts, rows)[i].path != SheetPath
      ensures Parts(texts, rows)[i] == Parts(texts, other)[i]
    {
      OtherPartsFixed(texts, texts.sheetHead + RowsXml(rows) + texts.sheetTail, texts.sheetHead + RowsXml(other) + texts.sheetTail, i);
    }
  }

  /** With the library's worksheet template, the worksheet part is `WorksheetXml` of the rows and
      reads back as them. */
  lemma LibrarySheetPart(texts: StaticTexts, rows: seq<seq<CellData>>)
    requires texts.sheetHead == SheetHead && texts.sheetTail == SheetTail
    requires forall i :: 0 <= i < |rows| ==> RowDecodable(rows[i])
    ensures Lookup(Parts(texts, rows), SheetPath) == Some(WorksheetXml(rows))
    ensures DecodeWorksheet(Lookup(Parts(texts, rows), SheetPath).value) == Some(SheetView(rows))
  {
    LookupSheet(texts, rows);
    WorksheetRoundTrip(rows);
  }

  /**
    The worksheet part is exactly what `generateXMLWorksheet`'s `replace` produces, `$` expansion included,
    whenever the rows' markup holds no `$` and the template's placeholder is its first `{`.
   */
  lemma SheetPartAsWritten(texts: StaticTexts, rows: seq<seq<CellData>>)
    requires forall i :: 0 <= i < |texts.sheetHead| ==> texts.sheetHead[i] != '{'
    requires '$' !in RowsXml(rows)
    ensures Lookup(Parts(texts, rows), SheetPath)
      == Some(ReplaceFirst(texts.sheetHead + Placeholder + texts.sheetTail, Placeholder, RowsXml(rows)))
  {
    LookupSheet(texts, rows);
    assert Placeholder[0] == '{';
    ReplaceFirstSplice(texts.sheetHead, Placeholder, texts.sheetTail, RowsXml(rows));
    SpliceWithoutDollar(texts.sheetHead, RowsXml(rows), texts.sheetTail);
  }

  // ---------------------------------------------------------------------------------------------
  // `zipcelx`

  /** Every item of a row array is a cell object. */
  predicate CellItems(items: seq<JsValue>) {
    forall k :: 0 <= k < |items| ==> items[k].CellObject?
  }

  /** Every array among the rows of the sheet data holds only cell objects. */
  predicate CellsAreObjects(data: JsValue) {
    data.Arr? ==> forall i :: 0 <= i < |data.items| ==> data.items[i].Arr? ==> CellItems(data.items[i].items)
  }

  function RowOfCells(items: seq<JsValue>): (r: seq<Cell>)
    requires CellItems(items)
    ensures |r| == |items| && forall k :: 0 <= k < |items| ==> r[k] == items[k].cell
    decreases |items|
  {
    if items == [] then [] else [items[0].cell] + RowOfCells(items[1..])
  }

  /** The cell objects of an accepted sheet, row by row. */
  function SheetRows(rows: seq<JsValue>): (r: seq<seq<Cell>>)
    requires forall i :: 0 <= i < |rows| ==> rows[i].Arr? && CellItems(rows[i].items)
    ensures |r| == |rows| && forall i :: 0 <= i < |rows| ==> r[i] == RowOfCells(rows[i].items)
    decreases |rows|
  {
    if rows == [] then [] else [RowOfCells(rows[0].items)] + SheetRows(rows[1..])
  }

  /** The cell objects `zipcelx` may update: those of an accepted configuration. */
  function CellsIn(config: Config): set<Cell>
    requires WellFormed(config) ==> CellsAreObjects(config.data)
  {
    if WellFormed(config) then CellsOf(SheetRows(config.data.items)) else {}
  }

  /**
    What `zipcelx` does once the configuration is accepted: it formats the rows, adds the four
    static parts, the worksheet and the style part to a new archive, and hands back its parts.
   */
  method BuildParts(rows: seq<seq<Cell>>, texts: StaticTexts) returns (parts: seq<Part>)
    modifies CellsOf(rows)
    ensures parts == Parts(texts, old(SheetSnapshot(rows)))
    ensures forall c :: c in CellsOf(rows) ==> c.ctype == NormalType(old(c.ctype))
  {
    var worksheet := GenerateWorksheet(rows, texts.sheetHead, texts.sheetTail);
    parts := FillArchive(texts, worksheet);
  }

  /** The archive calls themselves: the four static parts, the given worksheet text, then the
      style part built from the collected styles, of which there are none. */
  method FillArchive(texts: StaticTexts, worksheet: string) returns (parts: seq<Part>)
    ensures parts == ArchiveParts(texts, worksheet)
  {
    var styles: seq<string> := [];
    var zip := new Archive();
    zip.File(WorkbookPath, texts.workbook);
    zip.File(WorkbookRelsPath, texts.workbookRels);
    zip.File(RelsPath, texts.rels);
    zip.File(ContentTypesPath, texts.contentTypes);
    zip.File(SheetPath, worksheet);
    var styleFile := BuildStyleFile(texts, styles);
    zip.File(StylesPath, styleFile);
    parts := zip.files;
  }

  /**
    `zipcelx`: a rejected configuration throws `Validation failed.` before anything is built or
    any cell is touched; an accepted one yields the package named after the file name, whose
    worksheet is made from the cells as they were, with every unknown cell type set to string.
   */
  method Zipcelx(config: Config, texts: StaticTexts) returns (r: Result<Download, string>)
    requires WellFormed(config) ==> CellsAreObjects(config.data)
    modifies CellsIn(config)
    ensures r.Failure? <==> !WellFormed(config)
    ensures r.Failure? ==> r.error == ValidationFailed
    ensures WellFormed(config) ==>
      r == Success(Download(config.filename.s + ".xlsx", Parts(texts, old(SheetSnapshot(SheetRows(config.data.items))))))
    ensures forall c :: c in CellsIn(config) ==> c.ctype == NormalType(old(c.ctype))
  {
    if Validate(config).Some? {
      return Failure(ValidationFailed);
    }
    var parts := BuildParts(SheetRows(config.data.items), texts);
    r := Success(Download(config.filename.s + ".xlsx", parts));
  }

  /** A configuration with an empty file name is rejected before its rows are looked at, even
      when they hold items that are not cell objects. */
  method RejectedBeforeCells(texts: StaticTexts) returns (r: Result<Download, string>)
    ensures r == Failure(ValidationFailed)
  {
    r := Zipcelx(Config(Str(""), Arr([Arr([Null, Num(1)])])), texts);
  }
}

=== FILE: validation.dfy ===
/**
  The checks `zipcelx` makes on its configuration before it builds anything: a file name that is
  a non-empty string, and sheet data that is an array of arrays. The checks run in a fixed order
  and the first that fails decides the diagnostic.
 */
module Validation {
  import opened Wrappers
  import opened CellMarkup

  /** The JavaScript values a configuration can hold, as far as the checks tell them apart.
      Numbers are integers here; `NaN` is kept apart because it is falsy. */
  datatype JsValue =
    | Undefined
    | Null
    | Bool(b: bool)
    | Num(n: int)
    | NaN
    | Str(s: string)
    | Arr(items: seq<JsValue>)
    | CellObject(cell: Cell)
    | OtherObject

  /** JavaScript truthiness: `undefined`, `null`, `false`, `0`, `NaN` and `""` are falsy. */
  predicate Truthy(v: JsValue) {
    match v
    case Undefined => false
    case Null => false
    case Bool(b) => b
    case Num(n) => n != 0
    case NaN => false
    case Str(s) => s != ""
    case Arr(_) => true
    case CellObject(_) => true
    case OtherObject => true
  }

  /** The part of the configuration the encoder reads: `filename` and `sheet.data`. */
  datatype Config = Config(filename: JsValue, data: JsValue)

  /** The four diagnostics, one per check. */
  datatype ValidationError =
    | MissingFilename
    | FilenameNotString
    | SheetNotArray
    | RowsNotArrays

  /** The text each diagnostic prints, spelled as the library spells it. */
  function Message(e: ValidationError): string {
    match e
    case MissingFilename => "Zipclex config missing property filename"
    case FilenameNotString => "Zipclex filename can only be of type string"
    case SheetNotArray => "Zipcelx sheet data is not of type array"
    case RowsNotArrays => "Zipclex sheet data childs is not of type array"
  }

  /** Each diagnostic has its own text. */
  lemma MessagesDistinct(e1: ValidationError, e2: ValidationError)
    ensures Message(e1) == Message(e2) <==> e1 == e2
  {
    assert |Message(MissingFilename)| == 40 && |Message(FilenameNotString)| == 43;
    assert |Message(SheetNotArray)| == 39 && |Message(RowsNotArrays)| == 46;
  }

  /** The message `zipcelx` throws when the configuration is rejected. */
  const ValidationFailed: string := "Validation failed."

  /** `childValidator`: every item of the array is itself an array (`every` on an empty array
      holds). */
  function ChildValidator(items: seq<JsValue>): (r: bool)
    ensures r <==> forall i :: 0 <= i < |items| ==> items[i].Arr?
    decreases |items|
  {
    if items == [] then true
    else items[0].Arr? && ChildValidator(items[1..])
  }

  /** What an accepted configuration looks like. */
  predicate WellFormed(config: Config) {
    && config.filename.Str?
    && config.filename.s != ""
    && config.data.Arr?
    && forall i :: 0 <= i < |config.data.items| ==> config.data.items[i].Arr?
  }

  /**
    `validator`: `None` when the configuration passes, otherwise the first failing check. The
    file name is tested for truthiness before its type, so an empty string is reported missing,
    not mistyped; a truthy non-string (a number, an array, an object) is reported mistyped.
   */
  function Validate(config: Config): (r: Option<ValidationError>)
    ensures r.None? <==> WellFormed(config)
    ensures r == Some(MissingFilename) <==> !Truthy(config.filename)
    ensures r == Some(FilenameNotString) <==> Truthy(config.filename) && !config.filename.Str?
    ensures r == Some(SheetNotArray) <==>
      config.filename.Str? && config.filename.s != "" && !config.data.Arr?
    ensures r == Some(RowsNotArrays) <==>
      && config.filename.Str? && config.filename.s != "" && config.data.Arr?
      && exists i :: 0 <= i < |config.data.items| && !config.data.items[i].Arr?
  {
    if !Truthy(config.filename) then Some(MissingFilename)
    else if !config.filename.Str? then Some(FilenameNotString)
    else if !config.data.Arr? then Some(SheetNotArray)
    else if !ChildValidator(config.data.items) then Some(RowsNotArrays)
    else None
  }

  /** The checks for the file name come first: whatever the sheet data, a bad file name is what
      gets reported. */
  lemma FilenameCheckedFirst(filename: JsValue, data: JsValue, other: JsValue)
    requires !(filename.Str? && filename.s != "")
    ensures Validate(Config(filename, data)) == Validate(Config(filename, other))
    ensures Validate(Config(filename, data)).Some?
  {
  }

  /** Examples: an empty file name is missing, a number is mistyped, a sheet of rows that are not
      arrays is rejected, and an empty sheet is accepted. */
  lemma ValidationExamples()
    ensures Validate(Config(Str(""), Arr([]))) == Some(MissingFilename)
    ensures Validate(Config(Num(7), Arr([]))) == Some(FilenameNotString)
    ensures Validate(Config(Str("report"), OtherObject)) == Some(SheetNotArray)
    ensures Validate(Config(Str("report"), Arr([Arr([]), Num(1)]))) == Some(RowsNotArrays)
    ensures Validate(Config(Str("report"), Arr([]))) == None
  {
    assert Arr([Arr([]), Num(1)]).items[1] == Num(1);
  }
}

=== FILE: worksheet.dfy ===
/**
  Row and worksheet assembly: one `row` element per input row, numbered from 1, holding the
  markup of its cells in order, and the rows placed inside `sheetData` of the worksheet template
  (ECMA-376 Part 1, section 18.3.1.73 `row` and section 18.3.1.80 `sheetData`).
 */
module Worksheet {
  import opened Wrappers
  import opened JsString
  import opened Decimal
  import opened HtmlEscape
  import opened Coordinates
  import opened CellMarkup

  const RowOpenPrefix: string := "<row r=\""
  const RowOpenEnd: string := "\">"
  const RowClose: string := "</row>"

  /** The start tag of the row with one-based number `rowNumber`. */
  function RowOpen(rowNumber: nat): string {
    RowOpenPrefix + NatToDecimal(rowNumber) + RowOpenEnd
  }

  // ---------------------------------------------------------------------------------------------
  // The markup, as a function of the cell states

  /** The markup of each cell of a row, in order: the `map` in `formatRow`. */
  function CellParts(cells: seq<CellData>, rowNumber: nat): (r: seq<string>)
    ensures |r| == |cells|
  {
    seq(|cells|, k requires 0 <= k < |cells| => CellXml(cells[k], k, rowNumber))
  }

  /** The markup `formatRow` returns for the row at zero-based position `index`. */
  function RowXml(cells: seq<CellData>, index: nat): string {
    RowOpen(index + 1) + Join(CellParts(cells, index + 1)) + RowClose
  }

  /** The markup of each row, in order: the `map` in `generatorRows`. */
  function RowParts(rows: seq<seq<CellData>>): (r: seq<string>)
    ensures |r| == |rows|
  {
    seq(|rows|, i requires 0 <= i < |rows| => RowXml(rows[i], i))
  }

  /** The markup `generatorRows` returns. */
  function RowsXml(rows: seq<seq<CellData>>): string {
    Join(RowParts(rows))
  }

  /** The worksheet template up to its `{placeholder}` (XML declaration, `worksheet` start tag
      with its namespaces, and the `sheetData` start tag), the placeholder, and what follows it. */
  const SheetHead: string := "<?xml version=\"1.0\" ?>\n<worksheet xmlns=\"http://schemas.openxmlformats.org/spreadsheetml/2006/main\" xmlns:mc=\"http://schemas.openxmlformats.org/markup-compatibility/2006\" xmlns:mv=\"urn:schemas-microsoft-com:mac:vml\" xmlns:mx=\"http://schemas.microsoft.com/office/mac/excel/2008/main\" xmlns:r=\"http://schemas.openxmlformats.org/officeDocument/2006/relationships\" xmlns:x14=\"http://schemas.microsoft.com/office/spreadsheetml/2009/9/main\" xmlns:x14ac=\"http://schemas.microsoft.com/office/spreadsheetml/2009/9/ac\" xmlns:xm=\"http://schemas.microsoft.com/office/excel/2006/main\"><sheetData>"
  const Placeholder: string := "{placeholder}"
  const SheetTail: string := "</sheetData></worksheet>"

  /** The worksheet part: the rows spliced into the template in place of its placeholder. */
  function WorksheetXml(rows: seq<seq<CellData>>): string {
    SheetHead + RowsXml(rows) + SheetTail
  }

  /**
    The worksheet part as `templateSheet.replace('{placeholder}', XMLRows)` builds it: `replace`
    expands the `$` patterns of its replacement text (see `ReplaceFirstSplice`; the placeholder
    is the first `{` of the template).
   */
  function WorksheetAsWritten(rows: seq<seq<CellData>>): string {
    SheetHead + Substitute(RowsXml(rows), Placeholder, SheetHead, SheetTail) + SheetTail
  }

  /** Without `$` in the rows text the two agree. */
  lemma AsWrittenWithoutDollar(rows: seq<seq<CellData>>)
    requires '$' !in RowsXml(rows)
    ensures WorksheetAsWritten(rows) == WorksheetXml(rows)
  {
    SpliceWithoutDollar(SheetHead, RowsXml(rows), SheetTail);
  }

  lemma SpliceWithoutDollar(head: string, body: string, tail: string)
    requires '$' !in body
    ensures head + Substitute(body, Placeholder, head, tail) + tail == head + body + tail
  {
  }

  /** A sheet of one string cell holding `$$`. */
  function DollarSheet(): seq<seq<CellData>> {
    [[CellData(StringType, Text("$$"), None)]]
  }

  /** The text before and after the `$$` in the markup of the one-cell sheet. */
  function DollarCellBefore(): string { CellOpen + "A1" + "\"" + InlineOpen }
  function DollarBefore(): string { RowOpen(1) + DollarCellBefore() }
  function DollarAfter(): string { InlineClose + RowClose }

  lemma DollarCell()
    ensures CellXml(DollarSheet()[0][0], 0, 1) == DollarCellBefore() + "$$" + InlineClose
  {
    assert Escape("$$") == "$$";
    assert CellReference(0, 1) == "A1" by { CellReferenceExamples(); }
  }

  /** A row of one cell is its start tag, the cell's markup and its end tag. */
  lemma OneCellRow(cells: seq<CellData>, index: nat, x: string)
    requires |cells| == 1 && CellXml(cells[0], 0, index + 1) == x
    ensures RowXml(cells, index) == RowOpen(index + 1) + x + RowClose
  {
    SeqOne(CellParts(cells, index + 1));
    assert Join([x]) == x + Join([]);
  }

  lemma OneRow(rows: seq<seq<CellData>>)
    requires |rows| == 1
    ensures RowsXml(rows) == RowXml(rows[0], 0)
  {
    SeqOne(RowParts(rows));
    assert Join([RowXml(rows[0], 0)]) == RowXml(rows[0], 0) + Join([]);
  }

  /** The markup of the row that holds `$$`. */
  lemma DollarRows()
    ensures RowsXml(DollarSheet()) == DollarBefore() + "$$" + DollarAfter()
  {
    var x := DollarCellBefore() + "$$" + InlineClose;
    DollarCell();
    OneCellRow(DollarSheet()[0], 0, x);
    OneRow(DollarSheet());
    AppendRegroup(RowOpen(1), DollarCellBefore(), "$$", InlineClose, RowClose);
  }

  /** `replace` turns a `$$` between text without `$` into a single `$`, whatever it matched. */
  lemma SubstituteDoubleDollar(a: string, b: string, matched: string, before: string, after: string)
    requires '$' !in a && '$' !in b
    ensures Substitute(a + "$$" + b, matched, before, after) == a + "$" + b
  {
    var t := "$$" + b;
    assert a + "$$" + b == a + t;
    SubstitutePlainPrefix(a, t, matched, before, after);
    SubstituteEscapedDollar(b, matched, before, after);
    assert Substitute(b, matched, before, after) == b;
    assert a + ("$" + b) == a + "$" + b;
  }

  /** `$$` in a replacement text stands for one `$`. */
  lemma SubstituteEscapedDollar(b: string, matched: string, before: string, after: string)
    ensures Substitute("$$" + b, matched, before, after) == "$" + Substitute(b, matched, before, after)
  {
    var t := "$$" + b;
    assert t[0] == '$' && t[1] == '$' && t[2..] == b;
  }

  /** A sheet whose rows text holds one `$$` between text without `$` comes out of `replace`
      with a single `$` there, so it is not the worksheet the rows describe. */
  lemma AsWrittenHalvesDollar(rows: seq<seq<CellData>>, a: string, b: string)
    requires RowsXml(rows) == a + "$$" + b
    requires '$' !in a && '$' !in b
    ensures WorksheetAsWritten(rows) == SheetHead + (a + "$" + b) + SheetTail
    ensures WorksheetAsWritten(rows) != WorksheetXml(rows)
  {
    SpliceHalvesDollar(SheetHead, SheetTail, a, b);
  }

  lemma SpliceHalvesDollar(head: string, tail: string, a: string, b: string)
    requires '$' !in a && '$' !in b
    ensures head + Substitute(a + "$$" + b, Placeholder, head, tail) + tail == head + (a + "$" + b) + tail
    ensures head + (a + "$" + b) + tail != head + (a + "$$" + b) + tail
  {
    SubstituteDoubleDollar(a, b, Placeholder, head, tail);
    assert |head + (a + "$" + b) + tail| < |head + (a + "$$" + b) + tail|;
  }

  lemma DollarRowPieces()
    ensures '$' !in DollarBefore() && '$' !in DollarAfter()
  {
    assert RowOpen(1) == "<row r=\"1\">";
  }

  /** The one-cell sheet holding `$$` comes out of `replace` holding a single `$`, so its
      worksheet is not the one the cell describes. */
  lemma DollarCounterexample()
    ensures WorksheetAsWritten(DollarSheet()) == SheetHead + (DollarBefore() + "$" + DollarAfter()) + SheetTail
    ensures WorksheetAsWritten(DollarSheet()) != WorksheetXml(DollarSheet())
  {
    DollarRows();
    DollarRowPieces();
    AsWrittenHalvesDollar(DollarSheet(), DollarBefore(), DollarAfter());
  }

  /** An empty sheet leaves nothing between the `sheetData` tags of the template. */
  lemma EmptySheet()
    ensures WorksheetXml([]) == SheetHead + SheetTail
  {
    NoRows(SheetHead, SheetTail);
  }

  lemma NoRows(head: string, tail: string)
    ensures head + RowsXml([]) + tail == head + tail
  {
    assert RowParts([]) == [];
  }

  /** A sheet of two rows of two string cells. */
  function TwoByTwo(): seq<seq<CellData>> {
    [[CellData(StringType, Text("a"), None), CellData(StringType, Text("b"), None)],
     [CellData(StringType, Text("c"), None), CellData(StringType, Text("d"), None)]]
  }

  /** A row of two cells is its start tag, the two cells' markup and its end tag. */
  lemma TwoCellRow(cells: seq<CellData>, index: nat, x: string, y: string)
    requires |cells| == 2
    requires CellXml(cells[0], 0, index + 1) == x && CellXml(cells[1], 1, index + 1) == y
    ensures RowXml(cells, index) == RowOpen(index + 1) + x + y + RowClose
  {
    var parts := CellParts(cells, index + 1);
    SeqTwo(parts);
    JoinTwo(parts, x, y);
    AppendAssoc(RowOpen(index + 1), x, y);
  }

  /** The markup of an unstyled string cell at `reference` whose text needs no escaping. */
  function InlineCell(reference: string, text: string): string {
    CellOpen + reference + "\"" + (InlineOpen + text + InlineClose)
  }

  /** A string cell without style whose value is one lower-case letter, which escaping keeps. */
  lemma TextCell(index: nat, rowIndex: nat, v: char, reference: string)
    requires 'a' <= v <= 'z' && CellReference(index, rowIndex) == reference
    ensures CellXml(CellData(StringType, Text([v]), None), index, rowIndex) == InlineCell(reference, [v])
  {
    assert Escape([v]) == EscapeChar(v) + Escape([]);
  }

  lemma TwoByTwoFirstCells()
    ensures CellXml(TwoByTwo()[0][0], 0, 1) == InlineCell("A1", "a")
    ensures CellXml(TwoByTwo()[0][1], 1, 1) == InlineCell("B1", "b")
  {
    assert ColumnLetter(1) == "B";
    TextCell(0, 1, 'a', "A1");
    TextCell(1, 1, 'b', "B1");
  }

  lemma TwoByTwoSecondCells()
    ensures CellXml(TwoByTwo()[1][0], 0, 2) == InlineCell("A2", "c")
    ensures CellXml(TwoByTwo()[1][1], 1, 2) == InlineCell("B2", "d")
  {
    assert ColumnLetter(1) == "B";
    TextCell(0, 2, 'c', "A2");
    TextCell(1, 2, 'd', "B2");
  }

  /** Two rows of two string cells: rows numbered 1 and 2, cells referenced A1, B1, A2, B2. */
  lemma TwoByTwoRows()
    ensures RowsXml(TwoByTwo()) ==
      "<row r=\"1\">" + InlineCell("A1", "a") + InlineCell("B1", "b") + "</row>" +
      ("<row r=\"2\">" + InlineCell("A2", "c") + InlineCell("B2", "d") + "</row>")
  {
    var rows := TwoByTwo();
    TwoByTwoFirstCells();
    TwoByTwoSecondCells();
    TwoCellRow(rows[0], 0, InlineCell("A1", "a"), InlineCell("B1", "b"));
    TwoCellRow(rows[1], 1, InlineCell("A2", "c"), InlineCell("B2", "d"));
    assert RowOpen(1) == "<row r=\"1\">" && RowOpen(2) == "<row r=\"2\">";
    SeqTwo(RowParts(rows));
    JoinTwo(RowParts(rows), RowXml(rows[0], 0), RowXml(rows[1], 1));
  }

  lemma JoinTwo(parts: seq<string>, a: string, b: string)
    requires parts == [a, b]
    ensures Join(parts) == a + b
  {
    assert parts[1..] == [b];
    assert Join([b]) == b + Join([]);
  }

  // ---------------------------------------------------------------------------------------------
  // Reading the worksheet back

  /** What a `row` element says: its number and its cells. */
  datatype DecodedRow = DecodedRow(rowNumber: nat, cells: seq<DecodedCell>)

  /** What the markup of each cell of a row must say, in order. */
  function CellViews(cells: seq<CellData>, rowNumber: nat): seq<DecodedCell> {
    seq(|cells|, k requires 0 <= k < |cells| => CellView(cells[k], k, rowNumber))
  }

  /** What the markup of a row of cells in the given states must say. */
  function RowView(cells: seq<CellData>, index: nat): DecodedRow {
    DecodedRow(index + 1, CellViews(cells, index + 1))
  }

  function SheetView(rows: seq<seq<CellData>>): (r: seq<DecodedRow>)
    ensures |r| == |rows| && forall i :: 0 <= i < |rows| ==> r[i] == RowView(rows[i], i)
  {
    seq(|rows|, i requires 0 <= i < |rows| => RowView(rows[i], i))
  }

  /** A cell whose markup can be read back: a style text without `"`, and on the number path a
      value without `<`. */
  predicate Decodable(c: CellData) {
    '"' !in StyleText(c.style) && (NormalType(c.ctype) == NumberType ==> '<' !in ValueText(c.value))
  }

  predicate RowDecodable(cells: seq<CellData>) {
    forall k :: 0 <= k < |cells| ==> Decodable(cells[k])
  }

  /** Reads `c` elements as long as there are any; returns them and the text after them. */
  function DecodeCells(s: string): (r: (seq<DecodedCell>, string))
    ensures |r.1| <= |s|
    decreases |s|
  {
    match DecodeCell(s)
    case None => ([], s)
    case Some((c, rest)) =>
      var (cs, t) := DecodeCells(rest);
      ([c] + cs, t)
  }

  /** Reads one `row` element at the start of `s`. */
  function DecodeRow(s: string): (r: Option<(DecodedRow, string)>)
    ensures r.Some? ==> |r.value.1| < |s|
  {
    if !StartsWith(s, RowOpenPrefix) then None
    else match SplitAt(s[|RowOpenPrefix|..], '"')
      case None => None
      case Some((number, rest)) =>
        if number == [] || !AllDigits(number) || !StartsWith(rest, RowOpenEnd) then None
        else DecodeRowBody(DecimalValue(number), rest[|RowOpenEnd|..])
  }

  /** Reads the cells and the end tag of a row once its start tag has been read. */
  function DecodeRowBody(rowNumber: nat, s: string): (r: Option<(DecodedRow, string)>)
    ensures r.Some? ==> |r.value.1| < |s|
  {
    var (cells, after) := DecodeCells(s);
    if StartsWith(after, RowClose) then Some((DecodedRow(rowNumber, cells), after[|RowClose|..]))
    else None
  }

  function DecodeRows(s: string): (r: (seq<DecodedRow>, string))
    ensures |r.1| <= |s|
    decreases |s|
  {
    match DecodeRow(s)
    case None => ([], s)
    case Some((row, rest)) =>
      var (rows, t) := DecodeRows(rest);
      ([row] + rows, t)
  }

  /** Reads a worksheet part: the template around a sequence of rows. */
  function DecodeWorksheet(s: string): Option<seq<DecodedRow>> {
    DecodeDocument(s, SheetHead, SheetTail)
  }

  /** Reads a sequence of rows framed by `head` and `tail`. */
  function DecodeDocument(s: string, head: string, tail: string): Option<seq<DecodedRow>> {
    if !StartsWith(s, head) then None
    else
      var (rows, rest) := DecodeRows(s[|head|..]);
      if rest == tail then Some(rows) else None
  }

  lemma RowCloseIsNoCell(t: string)
    ensures DecodeCell(RowClose + t).None?
  {
    var s := RowClose + t;
    assert s[1] == '/';
  }

  lemma SheetTailIsNoRow()
    ensures DecodeRow(SheetTail).None?
  {
    assert SheetTail[1] == '/';
  }

  /** A `c` element that reads back on its own, followed by more text. */
  lemma DecodeCellsCons(part: string, tail: string, view: DecodedCell)
    requires DecodeCell(part + tail) == Some((view, tail))
    ensures DecodeCells(part + tail) == ([view] + DecodeCells(tail).0, DecodeCells(tail).1)
  {
  }

  /** Reading back the cells of a row from position `start` on. */
  lemma {:induction false} CellsFrom(cells: seq<CellData>, rowNumber: nat, start: nat, rest: string)
    requires start <= |cells|
    requires RowDecodable(cells)
    requires DecodeCell(rest).None?
    ensures DecodeCells(Join(CellParts(cells, rowNumber)[start..]) + rest)
         == (CellViews(cells, rowNumber)[start..], rest)
    decreases |cells| - start
  {
    var parts := CellParts(cells, rowNumber);
    var views := CellViews(cells, rowNumber);
    if start == |cells| {
      assert parts[start..] == [] && views[start..] == [];
      assert Join([]) + rest == rest;
    } else {
      CellsFrom(cells, rowNumber, start + 1, rest);
      var tail := Join(parts[start + 1..]) + rest;
      SliceTail(parts, start);
      JoinFirst(parts[start..], rest);
      CellRoundTrip(cells[start], start, rowNumber, tail);
      DecodeCellsCons(parts[start], tail, views[start]);
      SliceCons(views, start);
    }
  }

  lemma CellsRoundTrip(cells: seq<CellData>, rowNumber: nat, rest: string)
    requires RowDecodable(cells)
    requires DecodeCell(rest).None?
    ensures DecodeCells(Join(CellParts(cells, rowNumber)) + rest)
         == (CellViews(cells, rowNumber), rest)
  {
    var parts := CellParts(cells, rowNumber);
    var views := CellViews(cells, rowNumber);
    CellsFrom(cells, rowNumber, 0, rest);
    assert parts[0..] == parts && views[0..] == views;
  }

  /** The text after the row number's opening quote: the quote that closes it, `>` and `u`. */
  lemma RowOpenSplit(rowNumber: nat, u: string)
    ensures StartsWith(RowOpen(rowNumber) + u, RowOpenPrefix)
    ensures (RowOpen(rowNumber) + u)[|RowOpenPrefix|..] == NatToDecimal(rowNumber) + ['"'] + (RowOpenEnd[1..] + u)
  {
    var number := NatToDecimal(rowNumber);
    assert RowOpen(rowNumber) + u == RowOpenPrefix + (number + ['"'] + (RowOpenEnd[1..] + u));
    PrefixThenRest(RowOpenPrefix, number + ['"'] + (RowOpenEnd[1..] + u));
  }

  lemma DigitsHaveNoQuote(number: string)
    requires AllDigits(number)
    ensures '"' !in number
  {
    forall i | 0 <= i < |number| ensures number[i] != '"' {
      assert IsDigit(number[i]);
    }
  }

  lemma RowOpenRoundTrip(rowNumber: nat, u: string)
    ensures DecodeRow(RowOpen(rowNumber) + u) == DecodeRowBody(rowNumber, u)
  {
    var number := NatToDecimal(rowNumber);
    var after := RowOpenEnd[1..] + u;
    RowOpenSplit(rowNumber, u);
    DigitsHaveNoQuote(number);
    SplitAtFirst(number, '"', after);
    RowOpenEndThen(u);
    DecimalRoundTrip(rowNumber);
  }

  lemma RowOpenEndThen(u: string)
    ensures ['"'] + (RowOpenEnd[1..] + u) == RowOpenEnd + u
    ensures StartsWith(RowOpenEnd + u, RowOpenEnd) && (RowOpenEnd + u)[|RowOpenEnd|..] == u
  {
    PrefixThenRest(RowOpenEnd, u);
  }

  lemma RowBodyRoundTrip(cells: seq<CellData>, rowNumber: nat, rest: string)
    requires RowDecodable(cells)
    ensures DecodeRowBody(rowNumber, Join(CellParts(cells, rowNumber)) + (RowClose + rest))
         == Some((DecodedRow(rowNumber, CellViews(cells, rowNumber)), rest))
  {
    RowCloseIsNoCell(rest);
    CellsRoundTrip(cells, rowNumber, RowClose + rest);
    PrefixThenRest(RowClose, rest);
  }

  /** The markup of a row whose cells are all decodable reads back as its number and, in order,
      the reference, style text, kind and value text of each of its cells. */
  lemma RowRoundTrip(cells: seq<CellData>, index: nat, rest: string)
    requires RowDecodable(cells)
    ensures DecodeRow(RowXml(cells, index) + rest) == Some((RowView(cells, index), rest))
  {
    var body := Join(CellParts(cells, index + 1));
    calc {
      RowXml(cells, index) + rest;
      (RowOpen(index + 1) + body + RowClose) + rest;
      { AppendAssoc(RowOpen(index + 1) + body, RowClose, rest); }
      (RowOpen(index + 1) + body) + (RowClose + rest);
      { AppendAssoc(RowOpen(index + 1), body, RowClose + rest); }
      RowOpen(index + 1) + (body + (RowClose + rest));
    }
    RowOpenRoundTrip(index + 1, body + (RowClose + rest));
    RowBodyRoundTrip(cells, index + 1, rest);
  }

  /** A `row` element that reads back on its own, followed by more text. */
  lemma DecodeRowsCons(part: string, tail: string, view: DecodedRow)
    requires DecodeRow(part + tail) == Some((view, tail))
    ensures DecodeRows(part + tail) == ([view] + DecodeRows(tail).0, DecodeRows(tail).1)
  {
  }

  /** Reading back the rows of a sheet from position `start` on. */
  lemma {:induction false} RowsFrom(rows: seq<seq<CellData>>, start: nat, rest: string)
    requires start <= |rows|
    requires forall i :: 0 <= i < |rows| ==> RowDecodable(rows[i])
    requires DecodeRow(rest).None?
    ensures DecodeRows(Join(RowParts(rows)[start..]) + rest) == (SheetView(rows)[start..], rest)
    decreases |rows| - start
  {
    var parts := RowParts(rows);
    var views := SheetView(rows);
    if start == |rows| {
      assert parts[start..] == [] && views[start..] == [];
      assert Join([]) + rest == rest;
    } else {
      RowsFrom(rows, start + 1, rest);
      var tail := Join(parts[start + 1..]) + rest;
      SliceTail(parts, start);
      JoinFirst(parts[start..], rest);
      RowRoundTrip(rows[start], start, tail);
      DecodeRowsCons(parts[start], tail, views[start]);
      SliceCons(views, start);
    }
  }

  lemma RowsRoundTrip(rows: seq<seq<CellData>>, rest: string)
    requires forall i :: 0 <= i < |rows| ==> RowDecodable(rows[i])
    requires DecodeRow(rest).None?
    ensures DecodeRows(RowsXml(rows) + rest) == (SheetView(rows), rest)
  {
    RowsFrom(rows, 0, rest);
    assert RowParts(rows)[0..] == RowParts(rows) && SheetView(rows)[0..] == SheetView(rows);
  }

  lemma DocumentRoundTrip(head: string, tail: string, rows: seq<seq<CellData>>)
    requires forall i :: 0 <= i < |rows| ==> RowDecodable(rows[i])
    requires DecodeRow(tail).None?
    ensures DecodeDocument(head + RowsXml(rows) + tail, head, tail) == Some(SheetView(rows))
  {
    AppendAssoc(head, RowsXml(rows), tail);
    PrefixThenRest(head, RowsXml(rows) + tail);
    RowsRoundTrip(rows, tail);
  }

  /** The worksheet part reads back as every row with its number and, in each row, the reference,
      style text, kind and value text of every cell, in order, when every cell's style holds no
      `"` and every number-path value holds no `<`. Whether a value was text or a number, and the
      name of an unknown type, are not recovered. */
  lemma WorksheetRoundTrip(rows: seq<seq<CellData>>)
    requires forall i :: 0 <= i < |rows| ==> RowDecodable(rows[i])
    ensures DecodeWorksheet(WorksheetXml(rows)) == Some(SheetView(rows))
  {
    SheetTailIsNoRow();
    DocumentRoundTrip(SheetHead, SheetTail, rows);
    assert DecodeWorksheet(WorksheetXml(rows)) == DecodeDocument(SheetHead + RowsXml(rows) + SheetTail, SheetHead, SheetTail);
  }

  /** Every cell of a sheet gets its own reference. */
  lemma ReferencesDistinct(rows: seq<seq<CellData>>, i1: nat, k1: nat, i2: nat, k2: nat)
    requires i1 < |rows| && k1 < |rows[i1]| && i2 < |rows| && k2 < |rows[i2]|
    requires (i1, k1) != (i2, k2)
    ensures SheetView(rows)[i1].cells[k1].colIndex == k1 && SheetView(rows)[i1].cells[k1].rowNumber == i1 + 1
    ensures CellReference(k1, i1 + 1) != CellReference(k2, i2 + 1)
  {
    if CellReference(k1, i1 + 1) == CellReference(k2, i2 + 1) {
      CellReferenceInjective(k1, i1 + 1, k2, i2 + 1);
    }
  }

  // ---------------------------------------------------------------------------------------------
  // Formatting the cell objects of a sheet

  /** The current state of the cells of a row. */
  function Snapshot(row: seq<Cell>): (r: seq<CellData>)
    reads set c | c in row
    ensures |r| == |row| && forall k :: 0 <= k < |row| ==> r[k] == row[k].Data()
  {
    seq(|row|, k requires 0 <= k < |row| reads row => row[k].Data())
  }

  /** All the cell objects of a sheet. */
  function CellsOf(rows: seq<seq<Cell>>): set<Cell> {
    set r, c | r in rows && c in r :: c
  }

  /** The current state of the cells of every row. */
  function SheetSnapshot(rows: seq<seq<Cell>>): (r: seq<seq<CellData>>)
    reads CellsOf(rows)
    ensures |r| == |rows| && forall i :: 0 <= i < |rows| ==> r[i] == Snapshot(rows[i])
  {
    seq(|rows|, i requires 0 <= i < |rows| reads CellsOf(rows) => Snapshot(rows[i]))
  }

  /** The markup of the first `k` cell objects of a row, as they format in the current state. */
  function CellObjectsXml(row: seq<Cell>, k: nat, rowNumber: nat): string
    requires k <= |row|
    reads set c | c in row
  {
    if k == 0 then "" else CellObjectsXml(row, k - 1, rowNumber) + CellXml(row[k - 1].Data(), k - 1, rowNumber)
  }

  function RowObjectXml(row: seq<Cell>, index: nat): string
    reads set c | c in row
  {
    RowOpen(index + 1) + CellObjectsXml(row, |row|, index + 1) + RowClose
  }

  lemma {:induction false} CellObjectsXmlIsJoin(row: seq<Cell>, k: nat, rowNumber: nat)
    requires k <= |row|
    ensures CellObjectsXml(row, k, rowNumber) == Join(CellParts(Snapshot(row), rowNumber)[..k])
  {
    var parts := CellParts(Snapshot(row), rowNumber);
    if k == 0 {
      assert parts[..0] == [];
    } else {
      CellObjectsXmlIsJoin(row, k - 1, rowNumber);
      JoinPrefixStep(parts, k - 1);
      assert Snapshot(row)[k - 1] == row[k - 1].Data();
    }
  }

  /** Formatting the cell objects in their current state gives the markup of their states. */
  lemma RowObjectXmlIsRowXml(row: seq<Cell>, index: nat)
    ensures RowObjectXml(row, index) == RowXml(Snapshot(row), index)
  {
    CellObjectsXmlIsJoin(row, |row|, index + 1);
    assert CellParts(Snapshot(row), index + 1)[..|row|] == CellParts(Snapshot(row), index + 1);
  }

  /** Two states of one cell that format alike: same value, same style, same corrected type. */
  predicate SameFormat(a: CellData, b: CellData) {
    a.value == b.value && a.style == b.style && NormalType(a.ctype) == NormalType(b.ctype)
  }

  lemma SameFormatXml(a: CellData, b: CellData, index: nat, rowNumber: nat)
    requires SameFormat(a, b)
    ensures CellXml(a, index, rowNumber) == CellXml(b, index, rowNumber)
  {
    CellXmlNormalType(a, index, rowNumber);
    CellXmlNormalType(b, index, rowNumber);
    assert a.(ctype := NormalType(a.ctype)) == b.(ctype := NormalType(b.ctype));
  }

  lemma CellPartsSameFormat(a: seq<CellData>, b: seq<CellData>, rowNumber: nat)
    requires |a| == |b| && forall k :: 0 <= k < |a| ==> SameFormat(a[k], b[k])
    ensures CellParts(a, rowNumber) == CellParts(b, rowNumber)
  {
    forall k | 0 <= k < |a| ensures CellXml(a[k], k, rowNumber) == CellXml(b[k], k, rowNumber) {
      SameFormatXml(a[k], b[k], k, rowNumber);
    }
  }

  /** Cell objects whose states format like `before` give the markup of `before`. */
  lemma RowFormatsAsBefore(row: seq<Cell>, before: seq<CellData>, index: nat)
    requires |row| == |before| && forall k :: 0 <= k < |row| ==> SameFormat(row[k].Data(), before[k])
    ensures RowObjectXml(row, index) == RowXml(before, index)
  {
    RowObjectXmlIsRowXml(row, index);
    CellPartsSameFormat(Snapshot(row), before, index + 1);
  }

  lemma CellsOfStep(rows: seq<seq<Cell>>, i: nat)
    requires i < |rows|
    ensures forall c :: c in CellsOf(rows[..i + 1]) <==> c in CellsOf(rows[..i]) || c in rows[i]
  {
    assert rows[..i + 1] == rows[..i] + [rows[i]];
  }

  /** Proof helpers: facts about prefixes that the loop proofs below use as explicit steps. */
  lemma PrefixStep<T>(s: seq<T>, k: nat)
    requires k < |s|
    ensures forall x :: x in s[..k + 1] <==> x in s[..k] || x == s[k]
  {
    assert s[..k + 1] == s[..k] + [s[k]];
  }

  lemma PrefixAll<T>(s: seq<T>)
    ensures forall x :: x in s[..|s|] <==> x in s
  {
    assert s[..|s|] == s;
  }

  /**
    `formatRow`: formats the cells of a row in order and corrects the type of each in place. A
    cell object may occur more than once; the correction is idempotent, so every occurrence
    formats as the cell stood before the call.
   */
  method FormatRow(row: seq<Cell>, index: nat) returns (xml: string)
    modifies set c | c in row
    ensures xml == old(RowObjectXml(row, index))
    ensures forall c :: c in row ==> c.ctype == NormalType(old(c.ctype))
  {
    var rowIndex := index + 1;
    var rowCells := "";
    for k := 0 to |row|
      invariant rowCells == old(CellObjectsXml(row, k, rowIndex))
      invariant forall c :: c in row ==> c.ctype == if c in row[..k] then NormalType(old(c.ctype)) else old(c.ctype)
    {
      ghost var d := row[k].Data();
      assert SameFormat(d, old(row[k].Data()));
      var x := FormatCell(row[k], k, rowIndex);
      SameFormatXml(d, old(row[k].Data()), k, rowIndex);
      PrefixStep(row, k);
      rowCells := rowCells + x;
    }
    PrefixAll(row);
    xml := RowOpenPrefix + NatToDecimal(rowIndex) + RowOpenEnd + rowCells + RowClose;
  }

  /** `generatorRows`: formats every row in order, numbering them from 1, and corrects the type
      of every cell in place. */
  method GenerateRows(rows: seq<seq<Cell>>) returns (xml: string)
    modifies CellsOf(rows)
    ensures xml == RowsXml(old(SheetSnapshot(rows)))
    ensures forall c :: c in CellsOf(rows) ==> c.ctype == NormalType(old(c.ctype))
  {
    ghost var before := SheetSnapshot(rows);
    ghost var parts := RowParts(before);
    xml := "";
    for i := 0 to |rows|
      invariant xml == Join(parts[..i])
      invariant forall c :: c in CellsOf(rows) ==>
        c.ctype == if c in CellsOf(rows[..i]) then NormalType(old(c.ctype)) else old(c.ctype)
    {
      assert forall c :: c in rows[i] ==> c in CellsOf(rows);
      forall k | 0 <= k < |rows[i]| ensures SameFormat(rows[i][k].Data(), before[i][k]) {
        assert rows[i][k] in CellsOf(rows);
      }
      RowFormatsAsBefore(rows[i], before[i], i);
      var r := FormatRow(rows[i], i);
      assert r == parts[i];
      JoinPrefixStep(parts, i);
      CellsOfStep(rows, i);
      xml := xml + r;
    }
    assert rows[..|rows|] == rows;
    assert parts[..|rows|] == parts;
  }

  /**
    `generateXMLWorksheet`: the formatted rows placed in a worksheet template, given as its text
    before and after the placeholder (`SheetHead` and `SheetTail` for the library's own template,
    which makes the result `WorksheetXml` of the cells as they were).
   */
  method GenerateWorksheet(rows: seq<seq<Cell>>, head: string, tail: string) returns (xml: string)
    modifies CellsOf(rows)
    ensures xml == head + RowsXml(old(SheetSnapshot(rows))) + tail
    ensures forall c :: c in CellsOf(rows) ==> c.ctype == NormalType(old(c.ctype))
  {
    var xmlRows := GenerateRows(rows);
    xml := head + xmlRows + tail;
  }
}

=== FILE: wrappers.dfy ===
/** Optional values and failures, as used by the decoders and by the top-level entry point. */
module Wrappers {

  datatype Option<+T> = None | Some(value: T)

  datatype Result<+R, +E> = Success(value: R) | Failure(error: E)
}
